=== FILE: README.md ===
# Devlog builder — a Dafny model

This project models the logic of a small command-line tool that reads two
tables from a spreadsheet, *nodes* (tracked units of work) and *runs*
(timestamped executions attached to a node), and writes a developer-log
report. The tool does four things that have real logic, and each is modelled
as pure functions over immutable datatypes:

- **Report building** (`buildDevlog`): resolve a time window from
  `since`/`until`/`windowDays`, keep the runs inside it, group them by
  `node_id`, build one entry per node (title and prompt-type fallbacks,
  earliest/latest run time, distinct contexts, up to three sample outputs),
  sort the entries newest first and assemble the report with its period
  label and totals. Modules `Window`, `Grouping`, `Entries`, `EntrySort`,
  `DevlogBuilder`.
- **Sheet rows to records** (`getNodes`/`getRuns`): columns found by header
  name, missing columns or cells read as `""`, empty optional fields become
  null, rows without their required fields are dropped. Module `SheetsRows`.
- **Configuration** (`loadConfig`): environment value, else config-file
  value, else default; escaped newlines of the private key normalised;
  required keys checked in a fixed order. Module `Config`.
- **Command line** (`parseArgs` and `main`): flag values, the usage decision,
  the output file name and the order of the steps. Module `Cli`.

The records mirror `src/types.ts` (module `Types`). Helpers live in
`Wrappers` (`Option`, `Result`), `Seqs` (`indexOf`, order-preserving
de-duplication, filtering, `slice(0, n)`) and `Strings` (code-point string
order, `join`, piece occurrence).

## How the environment is represented

- Instants are integer milliseconds since 1970-01-01T00:00:00Z. The host
  date library is a value `DateLib(parse, iso)`: `parse(s)` is the time value
  of `new Date(s)` (`None` for an Invalid Date) and `iso(t)` is
  `toISOString()`. Both stay abstract. Where a property needs the ISO string
  order to be the time order, the lemma assumes `IsoOrdered(iso)`: 24
  characters and strictly increasing over the four-digit years
  0000–9999.
- `new Date(number)` is `Dates.TimeClip`: truncation toward zero, and an
  Invalid Date beyond ±8.64·10¹⁵ ms. `new Date("1970-01-01")` is `Dates.Epoch`.
- The current instant `now`, the environment and the parsed config file
  (`map<string, string>`, the inputs of `Config.LoadConfig`, whose result
  `Cli.Main` receives), the argument list, the two fetched ranges
  (`seq<seq<string>>`), `Number` (`string -> Option<real>`, `None` for NaN)
  and the text-generation service's answer (`Option<string>`, `None` when the
  call fails) are parameters.
- An Invalid Date bound makes `toISOString` throw; `BuildDevlog` returns
  `Failure(InvalidTimeValue)` for it and `Main` ends with exit status 1.

## Behaviour worth knowing

- A malformed `--since`/`--until` value gives an Invalid Date bound, and the
  run fails with a `RangeError` (exit status 1).
- Entries with equal `last_run_time` keep the order in which their nodes
  first appeared among the kept runs, because the sort is stable.
- An entry's time fields are the ISO forms of the earliest and the latest
  parsed run times: every kept run's time parses (`Entries.EntryTimes`,
  `BuildDevlogEntryContents`), and with a well-behaved formatter both are
  24-character strings, never empty (`Entries.EntryTimesOrdered`).
- `main` loads the configuration before it looks at the arguments, so a
  missing required setting fails the run even when the usage text would
  otherwise be printed (`Cli.Main`).
- The argument after a flag is taken as its value even when it is itself a
  flag: `--since --until 2025-11-13` sets `since` to `"--until"`.

## Model

| member | source | states |
|---|---|---|
| Window.ResolveWindow | src/devlog_builder.ts:24-34 | A relative window (truthy `windowDays`, no explicit bound) ends at `now` and starts `windowDays` days earlier, invalid when out of range; otherwise the start is the parsed `since` or the epoch and the end the parsed `until` or `now` |
| Window.ExplicitBoundIgnoresWindowDays | src/devlog_builder.ts:27-34 | Once `since` or `until` is given, `windowDays` has no influence on the window |
| Dates.TimeClip | src/devlog_builder.ts:30 | `new Date(x)` is valid exactly within ±8.64e15 ms and then truncates toward zero |
| Window.FilterRuns | src/devlog_builder.ts:36-40 | A run is kept if and only if its time parses and lies in the window, both ends included |
| Window.FilterRunsConcat | src/devlog_builder.ts:36-40 | The filter distributes over concatenation, so kept runs stay in input order |
| Grouping.AddRun | src/devlog_builder.ts:43-48 | A run without a node id changes nothing; otherwise the keys grow by its node id exactly when that id is not yet a key |
| Grouping.GroupByNode | src/devlog_builder.ts:42-48 | The map has at most one key per run, and every key is a non-empty node id holding at least one run |
| Grouping.GroupByNodeKeys | src/devlog_builder.ts:42-48 | The map's keys are the distinct non-empty node ids of the kept runs, in order of first appearance |
| Grouping.GroupByNodeRuns | src/devlog_builder.ts:42-48 | Each key holds exactly the kept runs with that node id, in run order |
| Grouping.GroupedRunsCount | src/devlog_builder.ts:42-48 | The groups together hold every run with a non-empty node id exactly once |
| Seqs.IndexOf | src/sheets_client.ts:37 | `indexOf` returns -1 exactly for an absent element, else its first position |
| Seqs.Dedup | src/devlog_builder.ts:64-66 | `Array.from(new Set(xs))` has no duplicates and exactly the elements of `xs` |
| Seqs.DedupFirstAppearance | src/devlog_builder.ts:64-66 | De-duplication keeps elements in order of first appearance |
| Entries.FindNodeSpec | src/devlog_builder.ts:52 | `find` returns the first node with the id, and nothing exactly when no node has it |
| Entries.TitleFor | src/devlog_builder.ts:53 | The title is the found node's non-empty title, else "(Unlabeled node {id})"; never empty |
| Entries.PromptTypeFor | src/devlog_builder.ts:54 | The prompt type is the found node's non-empty prompt type, else "unknown"; never empty |
| Entries.FirstNodeWins | src/devlog_builder.ts:52-54 | Nodes after the first one with the id, duplicates included, change neither title nor prompt type |
| Entries.ParsedTimes | src/devlog_builder.ts:56-58 | Unparsable times are dropped, so there are never more times than runs, and exactly as many when every run's time parses |
| Entries.SortAscSpec | src/devlog_builder.ts:56-59 | The numeric sort of the run times is ascending and a permutation |
| Entries.SortAscEnds | src/devlog_builder.ts:56-62 | The first and last sorted times are the minimum and the maximum |
| Entries.FirstRunTime | src/devlog_builder.ts:56-80 | "" when no time parses, otherwise the ISO form of the minimum parsed time (the head of the sort) |
| Entries.LastRunTime | src/devlog_builder.ts:56-81 | "" when no time parses, otherwise the ISO form of the maximum parsed time (the end of the sort) |
| Entries.EntryTimes | src/devlog_builder.ts:56-62 | For runs in the window every time parses; the entry's time fields are the ISO forms of the earliest and latest run, both within the window |
| Entries.EntryTimesOrdered | src/devlog_builder.ts:80-81 | With a well-behaved formatter and a window of four-digit years, both time fields are 24-character ISO strings and the first does not sort after the last |
| Entries.ContextsSpec | src/devlog_builder.ts:64-66 | Contexts are distinct, never empty, contain every run's context (empty mapped to "unknown") and nothing else |
| Entries.CollectSamples | src/devlog_builder.ts:68-72 | The loop only appends to the samples already held, stops at three, and adds at most one sample per run |
| Entries.CollectSamplesTakesThree | src/devlog_builder.ts:68-72 | The push-and-break loop yields the first three truthy output references |
| Entries.SampleOutputs | src/devlog_builder.ts:68-72 | Sample outputs are the first min(3, k) truthy output references, in run order |
| Entries.MakeEntry | src/devlog_builder.ts:50-84 | The entry carries the node id and counts all of its runs; its title and prompt type are never empty; it holds at most three samples |
| EntrySort.InsertPermutes | src/devlog_builder.ts:87-89 | Inserting keeps all entries (a permutation with one more element) |
| EntrySort.SortByRecency | src/devlog_builder.ts:86-89 | The sort is a permutation of the entries |
| EntrySort.SortNewestFirst | src/devlog_builder.ts:86-89 | After sorting no entry's `last_run_time` sorts after that of an earlier entry |
| EntrySort.SortStable | src/devlog_builder.ts:86-89 | For every key, entries with that `last_run_time` keep their relative order |
| EntrySort.SortRunCountSum | src/devlog_builder.ts:86-89 | Sorting neither adds nor loses runs |
| DevlogBuilder.BuildDevlog | src/devlog_builder.ts:18-103 | The build fails exactly when a window bound is an Invalid Date; otherwise `totalNodes` is the number of entries and `totalRuns` at most the input runs; a summary is attached only when wanted and answered |
| DevlogBuilder.EntriesOf | src/devlog_builder.ts:50-84 | One entry per map key, in the map's iteration order, the i-th built from the i-th key and its runs |
| DevlogBuilder.ReportEntries | src/devlog_builder.ts:50-89 | The sorted entries are a rearrangement of the per-key entries, never more than the kept runs |
| DevlogBuilder.UnsortedEntries | src/devlog_builder.ts:42-84 | Before sorting, the i-th entry is built for the i-th distinct node id from exactly that node's runs, and no id repeats |
| DevlogBuilder.ReportEntriesPerNode | src/devlog_builder.ts:42-84 | One entry per distinct non-empty node id, no id twice, each built from exactly that node's runs |
| DevlogBuilder.ReportEntriesRunCount | src/devlog_builder.ts:42-84 | The run counts add up to the runs with a node id, at most all kept runs |
| DevlogBuilder.ReportEntriesOrder | src/devlog_builder.ts:86-89 | Entries are newest first and equal keys keep the first-appearance order of their nodes |
| DevlogBuilder.ReportEntriesChronological | src/devlog_builder.ts:86-89 | With a well-behaved formatter the string order is the time order of each entry's latest run |
| DevlogBuilder.EntryLastRunTime | src/devlog_builder.ts:56-62 | An entry's `last_run_time` is the ISO form of its node's latest kept run, inside the window |
| DevlogBuilder.BuildDevlogTotals | src/devlog_builder.ts:36-48 | `totalRuns` counts exactly the runs in the window, `totalNodes` the distinct node ids among them, and the run counts sum to the kept runs with a node id |
| DevlogBuilder.BuildDevlogEntries | src/devlog_builder.ts:50-84 | Entry node ids are distinct, are exactly the non-empty node ids of the kept runs, and each entry is built from its node's kept runs |
| DevlogBuilder.BuildDevlogEntryContents | src/devlog_builder.ts:50-84 | Each entry's run count, title and prompt-type fallbacks, contexts, samples and time bounds as the source computes them |
| DevlogBuilder.BuildDevlogOrder | src/devlog_builder.ts:86-89 | The report's entries are newest first, ties in first-appearance order |
| DevlogBuilder.BuildDevlogChronological | src/devlog_builder.ts:86-89 | For a well-behaved ISO formatter and a window of four-digit years, an earlier entry's latest run is never older than a later entry's |
| DevlogBuilder.PeriodLabel | src/devlog_builder.ts:91-94 | The label has at most 23 characters; when both ISO forms have at least ten, it has exactly 23, the start date at positions 0-9, the arrow at 10-12 and the end date at 13-22 |
| DevlogBuilder.BuildDevlogPeriod | src/devlog_builder.ts:91-99 | `fromDate`/`toDate` are the ISO bounds and the label joins their ten-character dates with " → " |
| DevlogBuilder.BuildDevlogSummary | src/devlog_builder.ts:106-133 | The summary is the service's answer when an API key, a model id and at least one run are present, else absent |
| SheetsRows.Cell | src/sheets_client.ts:50 | A missing column or a cell past the row's end reads as "" |
| SheetsRows.FieldLookup | src/sheets_client.ts:37 | An unnamed column reads as ""; a named one is read at its first header occurrence |
| SheetsRows.Nullable | src/sheets_client.ts:53 | `value || null` is null exactly for the empty string |
| SheetsRows.PadField | src/sheets_client.ts:50 | Widening a row with empty cells changes none of its fields, so a short row reads like the full one |
| SheetsRows.MapNodeRow | src/sheets_client.ts:49-62 | The optional fields never hold the empty string; without a `node_id` or `title` column, and for an empty row, the node is one the filter drops |
| SheetsRows.NodeRecords | src/sheets_client.ts:64-66 | Every kept node has a node id and a title |
| SheetsRows.GetNodes | src/sheets_client.ts:31-66 | An empty or header-only range gives no nodes; there are fewer nodes than rows, each with a node id and a title; a header row without `node_id` or `title` gives none |
| SheetsRows.GetNodesMembers | src/sheets_client.ts:31-66 | An empty or header-only range gives no nodes; otherwise the nodes are exactly the mapped data rows with node id and title |
| SheetsRows.NodeRecordsConcat | src/sheets_client.ts:64-66 | Node rows are mapped one by one, keeping sheet order |
| SheetsRows.Score | src/sheets_client.ts:94-99 | The score is null exactly for an empty or non-numeric cell |
| SheetsRows.MapRunRow | src/sheets_client.ts:92-111 | The optional text fields never hold the empty string; the score is null without a `score` column; without a `run_id` or `run_time` column, and for an empty row, the run is one the filter drops |
| SheetsRows.RunRecords | src/sheets_client.ts:113-115 | Every kept run has a run id and a run time |
| SheetsRows.GetRuns | src/sheets_client.ts:75-115 | An empty or header-only range gives no runs; there are fewer runs than rows, each with a run id and a run time; a header row without `run_id` or `run_time` gives none |
| SheetsRows.GetRunsMembers | src/sheets_client.ts:75-115 | An empty or header-only range gives no runs; otherwise the runs are exactly the mapped data rows with run id and run time |
| SheetsRows.RunRecordsConcat | src/sheets_client.ts:113-115 | Run rows are mapped one by one, keeping sheet order |
| SheetsRows.SwapColumnsNode | src/sheets_client.ts:37-62 | With distinct headers, exchanging two columns of the header and of any row (a short row first widened with the empty cells the API leaves out) does not change the node record |
| SheetsRows.SwapColumnsRun | src/sheets_client.ts:80-111 | With distinct headers, exchanging two columns of the header and of any row (a short row first widened with the empty cells the API leaves out) does not change the run record |
| Config.Layered | src/config.ts:25-43 | The environment value wins when non-empty, then the file value, then the default; empty only if all three are |
| Config.Resolve | src/config.ts:17-43 | Settings with a non-empty default are never empty; the project id is never the empty string; the private key holds no escaped newline; each credential is empty exactly when neither the environment nor the file sets it |
| Config.UnescapeNewlines | src/config.ts:21-23 | Normalising never lengthens the key, keeps it empty exactly when it was, and changes it exactly when it held an escaped newline |
| Config.UnescapeConcat | src/config.ts:21-23 | The key can be cut anywhere except inside a backslash-`n` pair and each piece normalised alone, so every other character is kept in order and each pair becomes one newline in place |
| Config.UnescapeUnits | src/config.ts:21-23 | A backslash-`n` pair becomes a newline; a lone character, a lone backslash included, stays as it is |
| Config.UnescapeLeavesNone | src/config.ts:23 | No backslash-`n` pair survives the normalisation |
| Config.UnescapeIdempotent | src/config.ts:23 | Normalising twice is normalising once |
| Config.MissingOfMembers | src/config.ts:54 | A key is reported missing exactly when it is listed and its value is empty |
| Seqs.FilterInOrder | src/config.ts:54 | `filter` keeps the kept elements in their original order |
| Config.MissingInOrder | src/config.ts:45-54 | Missing keys are reported in the listed order |
| Config.Check | src/config.ts:45-61 | Loading fails exactly when a required value is empty, naming all of them; on success all six required values are non-empty |
| Config.LoadConfig | src/config.ts:17-61 | Loading returns the layered settings unchanged exactly when client email, private key and sheet id are all set; otherwise it reports a non-empty list holding exactly those of the three keys whose values are empty |
| Config.Message | src/config.ts:55-58 | The error text starts with the fixed prefix; a single missing key is named alone after it |
| Config.MessageSnoc | src/config.ts:57 | One more missing key appends ", " and its name, so with `Message` the text is the prefix then the names in reported order separated by ", " |
| Strings.JoinSnoc | src/config.ts:57 | Joining one more part appends the separator and that part |
| Config.MessageNamesEveryKey | src/config.ts:55-58 | The error text names every missing key |
| Config.OnlyCredentialsCanBeMissing | src/config.ts:33-52 | `nodesRange`, `runsRange` and `outputDir` are never missing; loading succeeds exactly when client email, private key and sheet id are set somewhere |
| Config.CheckCredentials | src/config.ts:45-61 | With the three ranges and directory set, only client email, private key and sheet id can be reported, and the check passes exactly when all three are set |
| Config.GeminiSettingsIrrelevant | src/config.ts:37-52 | The environment's text-generation key and model never decide whether loading succeeds (the file's follow from `Config.OnlyCredentialsCanBeMissing`) |
| Cli.FlagValue | src/index.ts:11-19 | A flag's value is the non-empty argument right after its first occurrence |
| Cli.FirstOccurrenceWins | src/index.ts:11-19 | Later occurrences of a flag are ignored |
| Cli.ParseArgs | src/index.ts:7-30 | `since`/`until` are the flag values; `windowDays` is set exactly when its flag value is a number above zero |
| Cli.ShowUsage | src/index.ts:36 | Usage is wanted exactly when `since` and `until` are absent or empty and `windowDays` is absent or zero; a relative window is then never in force |
| Cli.UsageIffNoUsableFlag | src/index.ts:36-43 | The usage text is shown exactly when no flag has a usable value |
| Cli.FileName | src/index.ts:61-63 | The name of a report with full ISO bounds has 34 characters |
| Cli.FileNameRoundTrip | src/index.ts:61-63 | The name is "devlog-", the start date, "_to_", the end date and ".md" at fixed positions, so both ten-character dates read back from it |
| Cli.Run | src/index.ts:36-75 | With a loaded configuration: usage exactly when no flag is usable; a build failure exactly when a flag is usable and a bound is an Invalid Date; otherwise the report built from the mapped rows is written under the name derived from its bounds |
| Cli.Main | src/index.ts:32-75 | A configuration error comes first and is reported unchanged; usage is shown exactly when the configuration loads and no flag is usable |
| Cli.MainExitStatus | src/index.ts:32-75 | Exit status 0 exactly when the configuration loads and either usage is shown or the window is valid |
| Cli.WrittenNameMatchesLabel | src/index.ts:32-63 | With the configuration loaded, a usable flag and both bounds within the four-digit years, a report is written and its file name carries the same two dates as the period label |

## Left out

- Google Sheets access: JWT authentication, the API client and the
  `values.get` calls are network I/O; the fetched values are inputs, and a
  failed fetch (fatal in the tool) is not modelled.
- The text-generation client and the text of the summary prompt (the
  `ctxLines` block): an external API; only the gate and the answer are
  modelled.
- Rendering with Handlebars and reading the template: a foreign library and
  file I/O.
- Reading and parsing `config/config.json`, `process.env`, `process.argv`,
  creating the output directory, `path.join`, writing the file, `console`
  and `process.exit`: I/O; the model stops at the file name.
- `Promise.all` over the two fetches: no logic beyond both inputs being
  available.
- Real date parsing and ISO formatting, and `Number`: host-library details,
  kept abstract. Non-finite numbers (`Infinity`) are not representable.
- Window.ResolveWindow: computes `now - windowDays * 86400000` in exact real
  arithmetic, not in binary64 floating point.
- EntrySort.SortByRecency: uses code-point string order where the source uses
  `localeCompare`; the two are taken to agree on the ASCII ISO strings
  compared (code-point order differs from UTF-16 code-unit order only above
  U+FFFF).
- DevlogBuilder.ReportEntriesChronological: relies on `IsoOrdered`, which
  holds only for four-digit years; extended-year ISO strings (`+010000-…`)
  are outside the model.
- Config values of a JSON type other than string are not modelled.

=== FILE: cli.dfy ===
/** The command-line entry point (src/index.ts): argument parsing, the usage
    decision, the output file name, and the order of the steps of `main`.
    `args` is `process.argv` without its first two elements. */
module Cli {
  import opened Wrappers
  import opened Types
  import opened Seqs
  import opened Dates
  import Config
  import SheetsRows
  import opened DevlogBuilder

  /** The argument right after the first occurrence of `flag`, when there
      is one and it is not empty. */
  function FlagValue(args: seq<string>, flag: string): (v: Option<string>)
    ensures v.Some? <==> flag in args && IndexOf(args, flag) + 1 < |args| && args[IndexOf(args, flag) + 1] != ""
    ensures v.Some? ==> v.value == args[IndexOf(args, flag) + 1] && v.value != ""
  {
    var i := IndexOf(args, flag);
    if i != -1 && i + 1 < |args| && args[i + 1] != "" then Some(args[i + 1]) else None
  }

  /** Only the first occurrence of a flag counts: once it has its value,
      anything appended later, the flag again included, changes nothing. */
  lemma FirstOccurrenceWins(args: seq<string>, more: seq<string>, flag: string)
    requires flag in args && IndexOf(args, flag) + 1 < |args|
    ensures FlagValue(args + more, flag) == FlagValue(args, flag)
  {
    IndexOfPrefix(args, more, flag);
    assert (args + more)[IndexOf(args, flag) + 1] == args[IndexOf(args, flag) + 1];
  }

  /** `parseArgs`: `--since`, `--until` take the following argument; `--window`
      takes it only when `Number` reads it as a number above zero
      (`toNumber` returns `None` for NaN). */
  function ParseArgs(args: seq<string>, toNumber: string -> Option<real>): (o: BuildOptions)
    ensures o.since == FlagValue(args, "--since")
    ensures o.until == FlagValue(args, "--until")
    ensures o.windowDays.Some? ==> o.windowDays.value > 0.0
    ensures o.windowDays.Some? <==> FlagValue(args, "--window").Some?
                                    && toNumber(FlagValue(args, "--window").value).Some?
                                    && toNumber(FlagValue(args, "--window").value).value > 0.0
  {
    var w := FlagValue(args, "--window");
    var n := if w.Some? then toNumber(w.value) else None;
    BuildOptions(
      since := FlagValue(args, "--since"),
      until := FlagValue(args, "--until"),
      windowDays := if n.Some? && n.value > 0.0 then n else None)
  }

  /** The usage text is shown when none of the three options is truthy: a
      date option is falsy when absent or empty, the window when absent, NaN
      or zero (src/index.ts:36). */
  predicate ShowUsage(o: BuildOptions): (b: bool)
    ensures b <==> && (o.since.None? || o.since.value == "")
                   && (o.until.None? || o.until.value == "")
                   && (o.windowDays.None? || o.windowDays.value == 0.0)
    ensures b ==> !Window.RelativeWindow(o)
  {
    !Truthy(o.since) && !Truthy(o.until) && !TruthyNumber(o.windowDays)
  }

  /** The usage text is shown exactly when none of the three flags is
      followed by a usable value. */
  lemma UsageIffNoUsableFlag(args: seq<string>, toNumber: string -> Option<real>)
    ensures ShowUsage(ParseArgs(args, toNumber)) <==>
              && FlagValue(args, "--since").None?
              && FlagValue(args, "--until").None?
              && (FlagValue(args, "--window").None?
                  || toNumber(FlagValue(args, "--window").value).None?
                  || toNumber(FlagValue(args, "--window").value).value <= 0.0)
  {
  }

  /** The report's file name (src/index.ts:61-63): the fixed prefix
      "devlog-", the first ten characters of the start bound's ISO form,
      "_to_", the same of the end bound, and the extension ".md". */
  function FileName(fromDate: string, toDate: string): (name: string)
    ensures |fromDate| >= 10 && |toDate| >= 10 ==> |name| == 34
  {
    "devlog-" + Take(fromDate, 10) + "_to_" + Take(toDate, 10) + ".md"
  }

  /** The two dates written into a file name. */
  function DatesOfFileName(name: string): (string, string)
    requires |name| == 34
  {
    (name[7..17], name[21..31])
  }

  /** The dates can be read back from the file name. */
  lemma FileNameRoundTrip(fromDate: string, toDate: string)
    requires |fromDate| >= 10 && |toDate| >= 10
    ensures |FileName(fromDate, toDate)| == 34
    ensures DatesOfFileName(FileName(fromDate, toDate)) == (fromDate[..10], toDate[..10])
    ensures FileName(fromDate, toDate)[..7] == "devlog-" && FileName(fromDate, toDate)[31..] == ".md"
    ensures FileName(fromDate, toDate)[17..21] == "_to_"
  {
    var name := FileName(fromDate, toDate);
    var f := fromDate[..10];
    var t := toDate[..10];
    assert name == "devlog-" + f + "_to_" + t + ".md";
    assert name[7..17] == f by {
      forall k | 0 <= k < 10 ensures name[7 + k] == f[k] { }
    }
    assert name[21..31] == t by {
      forall k | 0 <= k < 10 ensures name[21 + k] == t[k] { }
    }
    assert name[17..21] == "_to_" by {
      forall k | 0 <= k < 4 ensures name[17 + k] == "_to_"[k] { }
    }
  }

  /** How one invocation ends. */
  datatype Outcome =
    | ConfigFailure(error: Config.ConfigError)
    | Usage
    | BuildFailure(buildError: BuildError)
    | Wrote(fileName: string, data: DevlogData)

  /** The process exit status: 0 after the usage text or a written report,
      1 for an error caught by the top-level handler. */
  function ExitStatus(o: Outcome): nat {
    match o
    case Usage => 0
    case Wrote(_, _) => 0
    case ConfigFailure(_) => 1
    case BuildFailure(_) => 1
  }

  /** `main` after the configuration has loaded: parse the arguments, show
      the usage or fetch both ranges (`nodeRows`, `runRows` are the values
      returned for the configured ranges), build the report and name the
      file. */
  function Run(cfg: DevlogConfig, args: seq<string>, nodeRows: SheetsRows.Sheet, runRows: SheetsRows.Sheet,
               now: int, lib: DateLib, toNumber: string -> Option<real>, response: Option<string>): (o: Outcome)
    ensures !o.ConfigFailure?
    ensures o.Usage? <==> ShowUsage(ParseArgs(args, toNumber))
    ensures var b := Window.ResolveWindow(ParseArgs(args, toNumber), now, lib.parse);
            o.BuildFailure? <==> !ShowUsage(ParseArgs(args, toNumber)) && (b.since.None? || b.until.None?)
    ensures o.Wrote? ==>
              && o.fileName == FileName(o.data.fromDate, o.data.toDate)
              && BuildDevlog(cfg, SheetsRows.GetNodes(nodeRows), SheetsRows.GetRuns(runRows, toNumber),
                             ParseArgs(args, toNumber), now, lib, response) == Success(o.data)
  {
    var opts := ParseArgs(args, toNumber);
    if ShowUsage(opts) then Usage
    else
      var built := BuildDevlog(cfg, SheetsRows.GetNodes(nodeRows), SheetsRows.GetRuns(runRows, toNumber),
                               opts, now, lib, response);
      if built.Failure? then BuildFailure(built.error)
      else Wrote(FileName(built.value.fromDate, built.value.toDate), built.value)
  }

  /** `main`, given what `loadConfig` returned (`Config.LoadConfig` of the
      environment and the config file): a configuration error ends the run
      before the arguments are looked at; otherwise it goes on as `Run`. */
  function Main(loaded: Result<DevlogConfig, Config.ConfigError>, args: seq<string>,
                nodeRows: SheetsRows.Sheet, runRows: SheetsRows.Sheet,
                now: int, lib: DateLib, toNumber: string -> Option<real>, response: Option<string>): (o: Outcome)
    ensures o.ConfigFailure? <==> loaded.Failure?
    ensures o.ConfigFailure? ==> o.error == loaded.error
    ensures o.Usage? <==> loaded.Success? && ShowUsage(ParseArgs(args, toNumber))
  {
    if loaded.Failure? then ConfigFailure(loaded.error)
    else Run(loaded.value, args, nodeRows, runRows, now, lib, toNumber, response)
  }

  /** The run succeeds (status 0) exactly when the configuration loads and
      either no flag is usable or the window resolves to valid dates. */
  lemma MainExitStatus(loaded: Result<DevlogConfig, Config.ConfigError>, args: seq<string>,
                       nodeRows: SheetsRows.Sheet, runRows: SheetsRows.Sheet,
                       now: int, lib: DateLib, toNumber: string -> Option<real>, response: Option<string>)
    ensures var o := Main(loaded, args, nodeRows, runRows, now, lib, toNumber, response);
            var b := Window.ResolveWindow(ParseArgs(args, toNumber), now, lib.parse);
            ExitStatus(o) == 0 <==>
              loaded.Success? && (ShowUsage(ParseArgs(args, toNumber)) || (b.since.Some? && b.until.Some?))
  {
  }

  /** When a report is written, its file name carries the same two dates as
      its period label (given a well-behaved ISO formatter and a window of
      four-digit years). */
  lemma WrittenNameMatchesLabel(loaded: Result<DevlogConfig, Config.ConfigError>, args: seq<string>,
                                nodeRows: SheetsRows.Sheet, runRows: SheetsRows.Sheet,
                                now: int, lib: DateLib, toNumber: string -> Option<real>, response: Option<string>)
    requires loaded.Success? && !ShowUsage(ParseArgs(args, toNumber))
    requires IsoOrdered(lib.iso)
    requires var b := Window.ResolveWindow(ParseArgs(args, toNumber), now, lib.parse);
             && b.since.Some? && b.until.Some?
             && MinIsoInstant <= b.since.value <= MaxIsoInstant && MinIsoInstant <= b.until.value <= MaxIsoInstant
    ensures var o := Main(loaded, args, nodeRows, runRows, now, lib, toNumber, response);
            && o.Wrote?
            && |o.fileName| == 34 && |o.data.periodLabel| == 23
            && DatesOfFileName(o.fileName) == (o.data.periodLabel[..10], o.data.periodLabel[13..])
  {
    var o := Main(loaded, args, nodeRows, runRows, now, lib, toNumber, response);
    BuildDevlogPeriod(loaded.value, SheetsRows.GetNodes(nodeRows),
                      SheetsRows.GetRuns(runRows, toNumber), ParseArgs(args, toNumber), now, lib, response);
    FileNameRoundTrip(o.data.fromDate, o.data.toDate);
  }
}

=== FILE: config.dfy ===
/** `loadConfig` (src/config.ts): every setting layered as environment value,
    else config-file value, else default; the private key's escaped newlines
    turned into real ones; the required keys checked in a fixed order.
    The environment and the parsed config file are given as string maps; an
    unreadable or malformed file is the empty map. */
module Config {
  import opened Wrappers
  import opened Types
  import Strings
  import Seqs

  type Settings = map<string, string>

  /** A setting's value, "" when it is absent. */
  function Lookup(m: Settings, key: string): string {
    if key in m then m[key] else ""
  }

  /** One setting: the environment value when it is non-empty, else the
      config-file value when that is non-empty, else the default. */
  function Layered(env: Settings, envKey: string, file: Settings, fileKey: string, default: string): (v: string)
    ensures Lookup(env, envKey) != "" ==> v == env[envKey]
    ensures Lookup(env, envKey) == "" && Lookup(file, fileKey) != "" ==> v == file[fileKey]
    ensures Lookup(env, envKey) == "" && Lookup(file, fileKey) == "" ==> v == default
    ensures v == "" <==> Lookup(env, envKey) == "" && Lookup(file, fileKey) == "" && default == ""
  {
    if Lookup(env, envKey) != "" then env[envKey]
    else if Lookup(file, fileKey) != "" then file[fileKey]
    else default
  }

  // ---------------------------------------------------------------------
  // Private-key newline normalisation

  /** The two-character sequence backslash, `n` occurs in `s`. */
  predicate HasEscapedNewline(s: string) {
    |s| >= 2 && ((s[0] == '\\' && s[1] == 'n') || HasEscapedNewline(s[1..]))
  }

  /** The private key's normalisation: every backslash-`n` pair, scanned left to
      right without overlap, becomes a newline. Each replacement shortens
      the string by one, so the result is as long as `s` only when there was
      nothing to replace. */
  function UnescapeNewlines(s: string): (r: string)
    ensures |r| <= |s|
    ensures |r| == 0 <==> |s| == 0
    ensures HasEscapedNewline(s) ==> |r| < |s|
    ensures !HasEscapedNewline(s) ==> r == s
    ensures |s| > 0 ==> r[0] == if |s| >= 2 && s[0] == '\\' && s[1] == 'n' then '\n' else s[0]
  {
    if |s| == 0 then ""
    else if |s| >= 2 && s[0] == '\\' && s[1] == 'n' then "\n" + UnescapeNewlines(s[2..])
    else
      assert s == [s[0]] + s[1..];
      [s[0]] + UnescapeNewlines(s[1..])
  }

  /** No escaped newline survives the normalisation. */
  lemma {:induction false} UnescapeLeavesNone(s: string)
    ensures !HasEscapedNewline(UnescapeNewlines(s))
  {
    if |s| > 0 {
      if |s| >= 2 && s[0] == '\\' && s[1] == 'n' {
        UnescapeLeavesNone(s[2..]);
        assert ("\n" + UnescapeNewlines(s[2..]))[1..] == UnescapeNewlines(s[2..]);
      } else {
        UnescapeLeavesNone(s[1..]);
        assert ([s[0]] + UnescapeNewlines(s[1..]))[1..] == UnescapeNewlines(s[1..]);
      }
    }
  }

  /** The normalisation works piece by piece: cutting the key anywhere except
      between the backslash and the `n` of a pair, each piece can be
      normalised on its own. With `UnescapeUnits` this says every other
      character is kept in order and each pair becomes one newline in place. */
  lemma {:induction false} UnescapeConcat(a: string, b: string)
    requires !(|a| > 0 && |b| > 0 && a[|a| - 1] == '\\' && b[0] == 'n')
    ensures UnescapeNewlines(a + b) == UnescapeNewlines(a) + UnescapeNewlines(b)
  {
    if |a| == 0 {
      assert a + b == b;
    } else {
      // The scan consumes the same head, a pair or one character, of `a`
      // and of `a + b`.
      var ab := a + b;
      var pair := |a| >= 2 && a[0] == '\\' && a[1] == 'n';
      var k := if pair then 2 else 1;
      var h := if pair then "\n" else [a[0]];
      assert ab[0] == a[0];
      assert pair == (|ab| >= 2 && ab[0] == '\\' && ab[1] == 'n');
      assert ab[k..] == a[k..] + b;
      calc {
        UnescapeNewlines(ab);
        h + UnescapeNewlines(a[k..] + b);
        { UnescapeConcat(a[k..], b); }
        h + (UnescapeNewlines(a[k..]) + UnescapeNewlines(b));
        { Seqs.AppendAssoc(h, UnescapeNewlines(a[k..]), UnescapeNewlines(b)); }
        (h + UnescapeNewlines(a[k..])) + UnescapeNewlines(b);
        UnescapeNewlines(a) + UnescapeNewlines(b);
      }
    }
  }

  /** The pieces: a pair becomes one newline, any other single character
      stays as it is. */
  lemma UnescapeUnits(c: char)
    ensures UnescapeNewlines("\\n") == "\n"
    ensures UnescapeNewlines([c]) == [c]
  {
  }

  /** Hence the normalisation is idempotent. */
  lemma UnescapeIdempotent(s: string)
    ensures UnescapeNewlines(UnescapeNewlines(s)) == UnescapeNewlines(s)
  {
    UnescapeLeavesNone(s);
  }

  // ---------------------------------------------------------------------
  // Loading

  /** The layered settings, before the required-key check. The settings
      with a non-empty default are never empty, the project id is never the
      empty string, the private key holds no escaped newline, and each
      credential is empty exactly when neither source sets it. */
  function Resolve(env: Settings, file: Settings): (cfg: DevlogConfig)
    ensures cfg.nodesRange != "" && cfg.runsRange != "" && cfg.outputDir != "" && cfg.geminiModelId != ""
    ensures cfg.googleProjectId != Some("")
    ensures !HasEscapedNewline(cfg.googlePrivateKey)
    ensures cfg.googleClientEmail == "" <==> Lookup(env, "GOOGLE_CLIENT_EMAIL") == "" && Lookup(file, "googleClientEmail") == ""
    ensures cfg.googlePrivateKey == "" <==> Lookup(env, "GOOGLE_PRIVATE_KEY") == "" && Lookup(file, "googlePrivateKey") == ""
    ensures cfg.ledgerSheetId == "" <==> Lookup(env, "LEDGER_SHEET_ID") == "" && Lookup(file, "ledgerSheetId") == ""
  {
    UnescapeLeavesNone(Layered(env, "GOOGLE_PRIVATE_KEY", file, "googlePrivateKey", ""));
    var projectId := Layered(env, "GOOGLE_PROJECT_ID", file, "googleProjectId", "");
    DevlogConfig(
      googleProjectId := if projectId == "" then None else Some(projectId),
      googleClientEmail := Layered(env, "GOOGLE_CLIENT_EMAIL", file, "googleClientEmail", ""),
      googlePrivateKey := UnescapeNewlines(Layered(env, "GOOGLE_PRIVATE_KEY", file, "googlePrivateKey", "")),
      ledgerSheetId := Layered(env, "LEDGER_SHEET_ID", file, "ledgerSheetId", ""),
      nodesRange := Layered(env, "LEDGER_NODES_RANGE", file, "nodesRange", "nodes!A:I"),
      runsRange := Layered(env, "LEDGER_RUNS_RANGE", file, "runsRange", "runs!A:I"),
      geminiApiKey := Layered(env, "GEMINI_API_KEY", file, "geminiApiKey", ""),
      geminiModelId := Layered(env, "GEMINI_MODEL_ID", file, "geminiModelId", "gemini-1.5-pro"),
      outputDir := Layered(env, "OUTPUT_DIR", file, "outputDir", "devlogs"))
  }

  /** The configuration keys whose values are required. */
  datatype Key = GoogleClientEmail | GooglePrivateKey | LedgerSheetId | NodesRange | RunsRange | OutputDir

  /** The property name of a key, as it appears in the error message. */
  function Name(k: Key): string {
    match k
    case GoogleClientEmail => "googleClientEmail"
    case GooglePrivateKey => "googlePrivateKey"
    case LedgerSheetId => "ledgerSheetId"
    case NodesRange => "nodesRange"
    case RunsRange => "runsRange"
    case OutputDir => "outputDir"
  }

  /** The required keys, in the order they are checked and reported. */
  const RequiredKeys: seq<Key> := [GoogleClientEmail, GooglePrivateKey, LedgerSheetId, NodesRange, RunsRange, OutputDir]

  /** `cfg[key]`. */
  function Get(cfg: DevlogConfig, k: Key): string {
    match k
    case GoogleClientEmail => cfg.googleClientEmail
    case GooglePrivateKey => cfg.googlePrivateKey
    case LedgerSheetId => cfg.ledgerSheetId
    case NodesRange => cfg.nodesRange
    case RunsRange => cfg.runsRange
    case OutputDir => cfg.outputDir
  }

  /** The listed keys whose value in `cfg` is empty, in list order. */
  function MissingOf(cfg: DevlogConfig, keys: seq<Key>): seq<Key> {
    Seqs.Filter(keys, k => Get(cfg, k) == "")
  }

  /** A key is reported missing exactly when it is listed and its value is
      empty. */
  lemma MissingOfMembers(cfg: DevlogConfig, keys: seq<Key>)
    ensures forall k :: k in MissingOf(cfg, keys) <==> k in keys && Get(cfg, k) == ""
  {
    forall k | k in keys && Get(cfg, k) == "" ensures k in MissingOf(cfg, keys) {
      Seqs.FilterKeeps(keys, k => Get(cfg, k) == "", k);
    }
  }

  /** The missing keys are reported in the order they are listed. */
  lemma MissingInOrder(cfg: DevlogConfig, keys: seq<Key>, i: int, j: int)
    requires Seqs.Distinct(keys)
    requires 0 <= i < j < |MissingOf(cfg, keys)|
    ensures Seqs.IndexOf(keys, MissingOf(cfg, keys)[i]) < Seqs.IndexOf(keys, MissingOf(cfg, keys)[j])
  {
    Seqs.FilterInOrder(keys, k => Get(cfg, k) == "", i, j);
  }

  datatype ConfigError = MissingKeys(keys: seq<Key>)

  const MessagePrefix := "[config] Missing required devlog config keys: "

  /** The text of the thrown error: a fixed prefix, then the names of the
      missing keys separated by commas; a single missing key is named
      alone. */
  function Message(e: ConfigError): (m: string)
    ensures |MessagePrefix| <= |m| && m[..|MessagePrefix|] == MessagePrefix
    ensures |e.keys| == 1 ==> m == MessagePrefix + Name(e.keys[0])
  {
    MessagePrefix + Strings.Join(Names(e.keys), ", ")
  }

  /** The message names every missing key. */
  lemma MessageNamesEveryKey(e: ConfigError, i: int)
    requires 0 <= i < |e.keys|
    ensures Strings.Occurs(Name(e.keys[i]), Message(e))
  {
    var ns := Names(e.keys);
    Strings.JoinContains(ns, ", ", i);
    Strings.OccursAfterPrefix(MessagePrefix, Strings.Join(ns, ", "), ns[i]);
  }

  /** One more missing key adds a comma, a space and its name at the end,
      so the names follow in the reported order and nothing else is added. */
  lemma MessageSnoc(ks: seq<Key>, k: Key)
    requires |ks| > 0
    ensures Message(MissingKeys(ks + [k])) == Message(MissingKeys(ks)) + ", " + Name(k)
  {
    assert Names(ks + [k]) == Names(ks) + [Name(k)];
    Strings.JoinSnoc(Names(ks), ", ", Name(k));
  }

  function Names(keys: seq<Key>): (ns: seq<string>)
    ensures |ns| == |keys|
    ensures forall i :: 0 <= i < |keys| ==> ns[i] == Name(keys[i])
  {
    seq(|keys|, i requires 0 <= i < |keys| => Name(keys[i]))
  }

  /** The required-key check: the configuration itself, or the error
      naming every required key whose value is empty. */
  function Check(cfg: DevlogConfig): (r: Result<DevlogConfig, ConfigError>)
    ensures r.Failure? <==> exists k :: k in RequiredKeys && Get(cfg, k) == ""
    ensures r.Failure? ==> r.error.keys != [] && forall k :: k in r.error.keys <==> k in RequiredKeys && Get(cfg, k) == ""
    ensures r.Success? ==> r.value == cfg && forall k :: k in RequiredKeys ==> Get(cfg, k) != ""
  {
    var missing := MissingOf(cfg, RequiredKeys);
    MissingOfMembers(cfg, RequiredKeys);
    if |missing| > 0 then
      assert missing[0] in missing;
      Failure(MissingKeys(missing))
    else Success(cfg)
  }

  /** `loadConfig`: the layered settings, checked. It returns them unchanged
      exactly when the client email, the private key and the sheet id are
      all set, and otherwise reports some of those three and nothing else. */
  function LoadConfig(env: Settings, file: Settings): (r: Result<DevlogConfig, ConfigError>)
    ensures r.Success? ==> r.value == Resolve(env, file)
    ensures r.Success? <==>
              && Resolve(env, file).googleClientEmail != ""
              && Resolve(env, file).googlePrivateKey != ""
              && Resolve(env, file).ledgerSheetId != ""
    ensures r.Failure? ==>
              && r.error.keys != []
              && forall k :: k in r.error.keys <==>
                   k in [GoogleClientEmail, GooglePrivateKey, LedgerSheetId] && Get(Resolve(env, file), k) == ""
  {
    var cfg := Resolve(env, file);
    CheckCredentials(cfg);
    assert GoogleClientEmail in RequiredKeys && GooglePrivateKey in RequiredKeys && LedgerSheetId in RequiredKeys;
    Check(cfg)
  }

  /** Settings with a non-empty default are never reported missing: only the
      client email, the private key and the sheet id can be. */
  lemma OnlyCredentialsCanBeMissing(env: Settings, file: Settings)
    ensures LoadConfig(env, file).Failure? ==>
              forall k :: k in LoadConfig(env, file).error.keys ==>
                k in [GoogleClientEmail, GooglePrivateKey, LedgerSheetId]
    ensures LoadConfig(env, file).Success? <==>
              && Layered(env, "GOOGLE_CLIENT_EMAIL", file, "googleClientEmail", "") != ""
              && Layered(env, "GOOGLE_PRIVATE_KEY", file, "googlePrivateKey", "") != ""
              && Layered(env, "LEDGER_SHEET_ID", file, "ledgerSheetId", "") != ""
  {
    var cfg := Resolve(env, file);
    assert cfg.nodesRange != "" && cfg.runsRange != "" && cfg.outputDir != "";
    assert cfg.googlePrivateKey != "" <==> Layered(env, "GOOGLE_PRIVATE_KEY", file, "googlePrivateKey", "") != "";
    CheckCredentials(cfg);
  }

  /** With the three ranges and the output directory set, the check can
      only fail on the credentials and the sheet id. */
  lemma CheckCredentials(cfg: DevlogConfig)
    requires cfg.nodesRange != "" && cfg.runsRange != "" && cfg.outputDir != ""
    ensures Check(cfg).Failure? ==>
              forall k :: k in Check(cfg).error.keys ==> k in [GoogleClientEmail, GooglePrivateKey, LedgerSheetId]
    ensures Check(cfg).Success? <==> cfg.googleClientEmail != "" && cfg.googlePrivateKey != "" && cfg.ledgerSheetId != ""
  {
    assert GoogleClientEmail in RequiredKeys && GooglePrivateKey in RequiredKeys && LedgerSheetId in RequiredKeys;
    assert forall k :: k in RequiredKeys ==> k in [GoogleClientEmail, GooglePrivateKey, LedgerSheetId] || Get(cfg, k) != "";
  }

  /** The text-generation settings never decide whether loading succeeds. */
  lemma GeminiSettingsIrrelevant(env: Settings, file: Settings, apiKey: string, modelId: string)
    ensures LoadConfig(env["GEMINI_API_KEY" := apiKey]["GEMINI_MODEL_ID" := modelId], file).Success?
            == LoadConfig(env, file).Success?
  {
    var cfg := Resolve(env, file);
    var cfg' := Resolve(env["GEMINI_API_KEY" := apiKey]["GEMINI_MODEL_ID" := modelId], file);
    ResolveCredentials(env, file, apiKey, modelId);
    CheckCredentials(cfg);
    CheckCredentials(cfg');
  }

  lemma ResolveCredentials(env: Settings, file: Settings, apiKey: string, modelId: string)
    ensures var cfg := Resolve(env, file);
            var cfg' := Resolve(env["GEMINI_API_KEY" := apiKey]["GEMINI_MODEL_ID" := modelId], file);
            && cfg'.googleClientEmail == cfg.googleClientEmail
            && cfg'.googlePrivateKey == cfg.googlePrivateKey
            && cfg'.ledgerSheetId == cfg.ledgerSheetId
            && cfg.nodesRange != "" && cfg.runsRange != "" && cfg.outputDir != ""
            && cfg'.nodesRange != "" && cfg'.runsRange != "" && cfg'.outputDir != ""
  {
    var env' := env["GEMINI_API_KEY" := apiKey]["GEMINI_MODEL_ID" := modelId];
    assert Lookup(env', "GOOGLE_CLIENT_EMAIL") == Lookup(env, "GOOGLE_CLIENT_EMAIL");
    assert Lookup(env', "GOOGLE_PRIVATE_KEY") == Lookup(env, "GOOGLE_PRIVATE_KEY");
    assert Lookup(env', "LEDGER_SHEET_ID") == Lookup(env, "LEDGER_SHEET_ID");
  }
}

=== FILE: dates.dfy ===
/** The slice of the host `Date` library the pipeline relies on. Parsing and
    ISO formatting are host-library details and stay abstract: a `DateLib`
    value carries them, with instants as integer milliseconds since
    1970-01-01T00:00:00Z. */
module Dates {
  import opened Wrappers
  import Strings

  const MsPerDay: int := 24 * 60 * 60 * 1000

  /** The largest magnitude of a valid time value (ECMAScript TimeClip). */
  const MaxTimeValue: int := 8_640_000_000_000_000

  /** The epoch: the date-only string 1970-01-01 is read as UTC midnight. */
  const Epoch: int := 0

  /** 0000-01-01T00:00:00.000Z and 9999-12-31T23:59:59.999Z: the instants
      whose ISO form has a four-digit year. */
  const MinIsoInstant: int := -62_167_219_200_000
  const MaxIsoInstant: int := 253_402_300_799_999

  /** `parse(s)` is the time value of `new Date(s)`, `None` for an Invalid
      Date; `iso(t)` is `toISOString()` of a valid instant `t`. */
  datatype DateLib = DateLib(parse: string -> Option<int>, iso: int -> string)

  /** What `toISOString` guarantees for four-digit years: a 24-character
      string (`YYYY-MM-DDTHH:mm:ss.sssZ`) whose lexicographic order is the
      chronological order. */
  predicate IsoOrdered(iso: int -> string) {
    && (forall t :: MinIsoInstant <= t <= MaxIsoInstant ==> |iso(t)| == 24)
    && (forall a, b :: MinIsoInstant <= a < b <= MaxIsoInstant ==> Strings.Less(iso(a), iso(b)))
  }

  /** Truncation toward zero (ToIntegerOrInfinity on a finite number). */
  function Truncate(x: real): (r: int)
    ensures x >= 0.0 ==> r as real <= x < r as real + 1.0
    ensures x < 0.0 ==> r as real - 1.0 < x <= r as real
  {
    if x >= 0.0 then x.Floor else -((-x).Floor)
  }

  /** `new Date(x)` for a finite number `x`: the truncated value when it is
      within the representable range, an Invalid Date otherwise. */
  function TimeClip(x: real): (r: Option<int>)
    ensures r.Some? <==> -(MaxTimeValue as real) <= x <= MaxTimeValue as real
    ensures r.Some? ==> -MaxTimeValue <= r.value <= MaxTimeValue && r.value == Truncate(x)
  {
    if x < -(MaxTimeValue as real) || x > MaxTimeValue as real then None
    else Some(Truncate(x))
  }
}

=== FILE: devlog_builder.dfy ===
/** `buildDevlog` (src/devlog_builder.ts): resolve the window, filter the
    runs, group them by node, build and sort the entries, assemble the
    report. */
module DevlogBuilder {
  import opened Wrappers
  import opened Types
  import opened Seqs
  import opened Dates
  import Strings
  import opened Window
  import opened Grouping
  import opened Entries
  import opened EntrySort

  /** The `RangeError` that `toISOString` throws on an Invalid Date. */
  datatype BuildError = InvalidTimeValue

  /** No two entries share a node id. */
  predicate DistinctIds(es: seq<DevlogEntry>) {
    forall i, j :: 0 <= i < j < |es| ==> es[i].node_id != es[j].node_id
  }

  /** One entry per group, in the map's iteration order. */
  function EntriesOf(nodes: seq<Node>, gs: seq<Group>, lib: DateLib): (es: seq<DevlogEntry>)
    ensures |es| == |gs|
    ensures forall i :: 0 <= i < |gs| ==> es[i] == MakeEntry(nodes, gs[i].nodeId, gs[i].runs, lib)
  {
    if |gs| == 0 then []
    else
      var last := gs[|gs| - 1];
      var init := gs[..|gs| - 1];
      var pre := EntriesOf(nodes, init, lib);
      var es := pre + [MakeEntry(nodes, last.nodeId, last.runs, lib)];
      assert forall i :: 0 <= i < |gs| ==> es[i] == MakeEntry(nodes, gs[i].nodeId, gs[i].runs, lib) by {
        forall i | 0 <= i < |gs| ensures es[i] == MakeEntry(nodes, gs[i].nodeId, gs[i].runs, lib) {
          if i < |gs| - 1 {
            assert init[i] == gs[i];
            assert es[i] == pre[i];
          }
        }
      }
      es
  }

  /** The sorted entries for the filtered runs. */
  function ReportEntries(nodes: seq<Node>, filtered: seq<Run>, lib: DateLib): (es: seq<DevlogEntry>)
    ensures |es| <= |filtered|
    ensures multiset(es) == multiset(EntriesOf(nodes, GroupByNode(filtered), lib))
  {
    SortByRecency(EntriesOf(nodes, GroupByNode(filtered), lib))
  }

  /** The first ten characters (the date) of each bound's ISO form, joined
      by an arrow: never longer than 23 characters, and when both forms
      have at least ten, both dates can be read back from fixed positions. */
  function PeriodLabel(since: int, until: int, iso: int -> string): (l: string)
    ensures |l| <= 23
    ensures |iso(since)| >= 10 && |iso(until)| >= 10 ==>
              && |l| == 23
              && l[..10] == iso(since)[..10]
              && l[10..13] == " \U{2192} "
              && l[13..] == iso(until)[..10]
  {
    Take(iso(since), 10) + " \U{2192} " + Take(iso(until), 10)
  }

  /** The summary is requested only with an API key, a model id and at
      least one run in the window. */
  predicate WantsSummary(cfg: DevlogConfig, totalRuns: nat) {
    cfg.geminiApiKey != "" && cfg.geminiModelId != "" && totalRuns > 0
  }

  /** Builds the report. `now` is the current instant, `lib` the host date
      library, and `response` what the text-generation service returns when
      asked (`None` when the call fails; the failure is swallowed). An
      Invalid Date bound makes `toISOString` throw. */
  function BuildDevlog(cfg: DevlogConfig, nodes: seq<Node>, runs: seq<Run>, opts: BuildOptions,
                       now: int, lib: DateLib, response: Option<string>): (r: Result<DevlogData, BuildError>)
    ensures r.Failure? <==> ResolveWindow(opts, now, lib.parse).since.None? || ResolveWindow(opts, now, lib.parse).until.None?
    ensures r.Success? ==> r.value.totalNodes == |r.value.entries| && r.value.totalRuns <= |runs|
    ensures r.Success? && r.value.summary.Some? ==> WantsSummary(cfg, r.value.totalRuns) && response.Some?
  {
    var b := ResolveWindow(opts, now, lib.parse);
    if b.since.None? || b.until.None? then Failure(InvalidTimeValue)
    else
      var filtered := FilterRuns(runs, lib.parse, b.since.value, b.until.value);
      var entries := ReportEntries(nodes, filtered, lib);
      Success(DevlogData(
        periodLabel := PeriodLabel(b.since.value, b.until.value, lib.iso),
        fromDate := lib.iso(b.since.value),
        toDate := lib.iso(b.until.value),
        totalRuns := |filtered|,
        totalNodes := |entries|,
        entries := entries,
        summary := if WantsSummary(cfg, |filtered|) then response else None))
  }

  /** The runs `BuildDevlog` keeps for a successfully resolved window. */
  function Kept(runs: seq<Run>, opts: BuildOptions, now: int, lib: DateLib): seq<Run>
    requires ResolveWindow(opts, now, lib.parse).since.Some? && ResolveWindow(opts, now, lib.parse).until.Some?
  {
    var b := ResolveWindow(opts, now, lib.parse);
    FilterRuns(runs, lib.parse, b.since.value, b.until.value)
  }

  // ---------------------------------------------------------------------
  // Properties of the entries, for any filtered run sequence

  /** Before sorting, the entries follow the grouping keys: the i-th entry
      is built for the i-th distinct node id, from exactly that node's runs. */
  lemma UnsortedEntries(nodes: seq<Node>, filtered: seq<Run>, lib: DateLib)
    ensures var un := EntriesOf(nodes, GroupByNode(filtered), lib);
            && |un| == |Dedup(NodeIds(filtered))|
            && (forall i :: 0 <= i < |un| ==> un[i].node_id == Dedup(NodeIds(filtered))[i])
            && (forall i :: 0 <= i < |un| ==> un[i] == MakeEntry(nodes, un[i].node_id, RunsOf(filtered, un[i].node_id), lib))
            && DistinctIds(un)
  {
    GroupByNodeKeys(filtered);
    GroupByNodeRuns(filtered);
    var gs := GroupByNode(filtered);
    var ks := Dedup(NodeIds(filtered));
    var un := EntriesOf(nodes, gs, lib);
    forall i | 0 <= i < |un|
      ensures un[i].node_id == ks[i]
      ensures un[i] == MakeEntry(nodes, un[i].node_id, RunsOf(filtered, un[i].node_id), lib)
    {
      assert un[i] == MakeEntry(nodes, gs[i].nodeId, gs[i].runs, lib);
      assert Keys(gs)[i] == gs[i].nodeId;
    }
    assert Distinct(ks);
  }

  /** Sorting keeps exactly the same entries. */
  lemma SortSameEntries(es: seq<DevlogEntry>)
    ensures forall e :: e in SortByRecency(es) <==> e in es
  {
    var r := SortByRecency(es);
    forall e ensures e in r <==> e in es {
      assert e in r <==> e in multiset(r);
      assert e in es <==> e in multiset(es);
    }
  }

  /** Every entry belongs to one distinct non-empty node id of the runs and
      is the entry built from exactly that node's runs. */
  lemma ReportEntriesPerNode(nodes: seq<Node>, filtered: seq<Run>, lib: DateLib)
    ensures var es := ReportEntries(nodes, filtered, lib);
            && DistinctIds(es)
            && |es| == |Dedup(NodeIds(filtered))|
            && (forall id :: (exists e :: e in es && e.node_id == id) <==> id in NodeIds(filtered))
            && (forall e :: e in es ==> e == MakeEntry(nodes, e.node_id, RunsOf(filtered, e.node_id), lib))
  {
    var es := ReportEntries(nodes, filtered, lib);
    var ks := Dedup(NodeIds(filtered));
    UnsortedEntries(nodes, filtered, lib);
    SortedEntries(nodes, filtered, lib, EntriesOf(nodes, GroupByNode(filtered), lib), ks);
    forall id ensures (exists e :: e in es && e.node_id == id) <==> id in NodeIds(filtered) {
      assert id in ks <==> id in NodeIds(filtered);
    }
  }

  /** What sorting keeps of entries built one per key. */
  lemma SortedEntries(nodes: seq<Node>, filtered: seq<Run>, lib: DateLib, un: seq<DevlogEntry>, ks: seq<string>)
    requires |un| == |ks|
    requires forall i :: 0 <= i < |un| ==> un[i].node_id == ks[i]
    requires forall i :: 0 <= i < |un| ==> un[i] == MakeEntry(nodes, un[i].node_id, RunsOf(filtered, un[i].node_id), lib)
    requires DistinctIds(un)
    ensures var es := SortByRecency(un);
            && DistinctIds(es)
            && |es| == |ks|
            && (forall id :: (exists e :: e in es && e.node_id == id) <==> id in ks)
            && (forall e :: e in es ==> e == MakeEntry(nodes, e.node_id, RunsOf(filtered, e.node_id), lib))
  {
    SortSameEntries(un);
    SortKeepsDistinctIds(un);
    SameIds(un, SortByRecency(un), ks);
    SameBuilt(nodes, filtered, lib, un, SortByRecency(un));
  }

  /** Two sequences with the same elements carry the same node ids. */
  lemma SameIds(un: seq<DevlogEntry>, es: seq<DevlogEntry>, ks: seq<string>)
    requires |un| == |ks|
    requires forall i :: 0 <= i < |un| ==> un[i].node_id == ks[i]
    requires forall e :: e in es <==> e in un
    ensures forall id :: (exists e :: e in es && e.node_id == id) <==> id in ks
  {
    forall id
      ensures (exists e :: e in es && e.node_id == id) <==> id in ks
    {
      if id in ks {
        var i :| 0 <= i < |ks| && ks[i] == id;
        assert un[i] in es;
      }
      if e :| e in es && e.node_id == id {
        var i :| 0 <= i < |un| && e == un[i];
        assert ks[i] in ks;
      }
    }
  }

  lemma SameBuilt(nodes: seq<Node>, filtered: seq<Run>, lib: DateLib, un: seq<DevlogEntry>, es: seq<DevlogEntry>)
    requires forall i :: 0 <= i < |un| ==> un[i] == MakeEntry(nodes, un[i].node_id, RunsOf(filtered, un[i].node_id), lib)
    requires forall e :: e in es <==> e in un
    ensures forall e :: e in es ==> e == MakeEntry(nodes, e.node_id, RunsOf(filtered, e.node_id), lib)
  {
    forall e | e in es
      ensures e == MakeEntry(nodes, e.node_id, RunsOf(filtered, e.node_id), lib)
    {
      var i :| 0 <= i < |un| && e == un[i];
    }
  }

  /** Sorting a sequence of entries with distinct node ids keeps them distinct. */
  lemma {:induction false} SortKeepsDistinctIds(es: seq<DevlogEntry>)
    requires DistinctIds(es)
    ensures DistinctIds(SortByRecency(es))
  {
    if |es| > 0 {
      var t := SortByRecency(es[1..]);
      SortKeepsDistinctIds(es[1..]);
      assert forall x :: x in t ==> x in es[1..] by {
        forall x | x in t ensures x in es[1..] {
          assert x in multiset(t);
        }
      }
      InsertKeepsDistinctIds(es[0], t);
    }
  }

  lemma {:induction false} InsertKeepsDistinctIds(e: DevlogEntry, es: seq<DevlogEntry>)
    requires DistinctIds(es)
    requires forall x :: x in es ==> x.node_id != e.node_id
    ensures DistinctIds(InsertByRecency(e, es))
  {
    if |es| > 0 && !Strings.LessEq(es[0].last_run_time, e.last_run_time) {
      var t := InsertByRecency(e, es[1..]);
      InsertKeepsDistinctIds(e, es[1..]);
      InsertPermutes(e, es[1..]);
      forall k | 0 <= k < |t|
        ensures t[k].node_id != es[0].node_id
      {
        assert t[k] in multiset(t);
        if t[k] != e {
          var m :| 0 <= m < |es[1..]| && es[1..][m] == t[k];
          assert es[m + 1] == t[k];
        }
      }
      assert InsertByRecency(e, es) == [es[0]] + t;
    }
  }

  /** The run counts add up to the number of runs with a node id. */
  lemma ReportEntriesRunCount(nodes: seq<Node>, filtered: seq<Run>, lib: DateLib)
    ensures RunCountSum(ReportEntries(nodes, filtered, lib)) == |NodeIds(filtered)| <= |filtered|
  {
    var gs := GroupByNode(filtered);
    var un := EntriesOf(nodes, gs, lib);
    SortRunCountSum(un);
    GroupedRunsCount(filtered);
    EntriesRunCountSum(nodes, gs, lib);
  }

  lemma {:induction false} EntriesRunCountSum(nodes: seq<Node>, gs: seq<Group>, lib: DateLib)
    ensures RunCountSum(EntriesOf(nodes, gs, lib)) == GroupedRuns(gs)
  {
    if |gs| > 0 {
      var last := gs[|gs| - 1];
      EntriesRunCountSum(nodes, gs[..|gs| - 1], lib);
      RunCountSumAppend(EntriesOf(nodes, gs[..|gs| - 1], lib), MakeEntry(nodes, last.nodeId, last.runs, lib));
    }
  }

  lemma {:induction false} RunCountSumAppend(es: seq<DevlogEntry>, e: DevlogEntry)
    ensures RunCountSum(es + [e]) == RunCountSum(es) + e.run_count
  {
    if |es| > 0 {
      assert (es + [e])[1..] == es[1..] + [e];
      RunCountSumAppend(es[1..], e);
    }
  }

  /** The entries are ordered newest first, and entries with the same
      `last_run_time` keep the order in which their nodes first appeared. */
  lemma ReportEntriesOrder(nodes: seq<Node>, filtered: seq<Run>, lib: DateLib, k: string)
    ensures NewestFirst(ReportEntries(nodes, filtered, lib))
    ensures WithKey(ReportEntries(nodes, filtered, lib), k) == WithKey(EntriesOf(nodes, GroupByNode(filtered), lib), k)
    ensures Keys(GroupByNode(filtered)) == Dedup(NodeIds(filtered))
  {
    SortNewestFirst(EntriesOf(nodes, GroupByNode(filtered), lib));
    SortStable(EntriesOf(nodes, GroupByNode(filtered), lib), k);
    GroupByNodeKeys(filtered);
  }

  // ---------------------------------------------------------------------
  // Properties of BuildDevlog

  /** The report counts exactly the runs in the window; its entries are one
      per distinct node id among them, and their run counts add up to the
      kept runs that have a node id. */
  lemma BuildDevlogTotals(cfg: DevlogConfig, nodes: seq<Node>, runs: seq<Run>, opts: BuildOptions,
                          now: int, lib: DateLib, response: Option<string>)
    requires ResolveWindow(opts, now, lib.parse).since.Some? && ResolveWindow(opts, now, lib.parse).until.Some?
    ensures var d := BuildDevlog(cfg, nodes, runs, opts, now, lib, response).value;
            var b := ResolveWindow(opts, now, lib.parse);
            var kept := Kept(runs, opts, now, lib);
            && (forall r :: r in kept <==> r in runs && InWindow(lib.parse, r, b.since.value, b.until.value))
            && d.totalRuns == |kept|
            && d.totalNodes == |Dedup(NodeIds(kept))|
            && RunCountSum(d.entries) == |NodeIds(kept)| <= d.totalRuns
  {
    var kept := Kept(runs, opts, now, lib);
    ReportEntriesPerNode(nodes, kept, lib);
    ReportEntriesRunCount(nodes, kept, lib);
  }

  /** The node ids of the entries are distinct, they are exactly the
      non-empty node ids of the kept runs, and each entry is built from that
      node's kept runs. */
  lemma BuildDevlogEntries(cfg: DevlogConfig, nodes: seq<Node>, runs: seq<Run>, opts: BuildOptions,
                           now: int, lib: DateLib, response: Option<string>)
    requires ResolveWindow(opts, now, lib.parse).since.Some? && ResolveWindow(opts, now, lib.parse).until.Some?
    ensures var d := BuildDevlog(cfg, nodes, runs, opts, now, lib, response).value;
            var kept := Kept(runs, opts, now, lib);
            && DistinctIds(d.entries)
            && (forall id :: (exists e :: e in d.entries && e.node_id == id) <==> id in NodeIds(kept))
            && (forall e :: e in d.entries ==> e == MakeEntry(nodes, e.node_id, RunsOf(kept, e.node_id), lib))
  {
    ReportEntriesPerNode(nodes, Kept(runs, opts, now, lib), lib);
  }

  /** The contents of one entry: its run count is the number of kept runs of
      its node (at least one), title and prompt type come from the first
      node with that id or fall back, the contexts are the distinct labels
      of its runs, the samples are its first three output references, and
      its time fields are the ISO forms of its earliest and latest run time,
      both inside the window. */
  lemma BuildDevlogEntryContents(cfg: DevlogConfig, nodes: seq<Node>, runs: seq<Run>, opts: BuildOptions,
                                 now: int, lib: DateLib, response: Option<string>, e: DevlogEntry)
    requires ResolveWindow(opts, now, lib.parse).since.Some? && ResolveWindow(opts, now, lib.parse).until.Some?
    requires e in BuildDevlog(cfg, nodes, runs, opts, now, lib, response).value.entries
    ensures var b := ResolveWindow(opts, now, lib.parse);
            var rs := RunsOf(Kept(runs, opts, now, lib), e.node_id);
            var ts := ParsedTimes(rs, lib.parse);
            && e.node_id != ""
            && e.run_count == |rs| > 0
            && e.title == TitleFor(nodes, e.node_id)
            && e.prompt_type == PromptTypeFor(nodes, e.node_id)
            && e.contexts == Contexts(rs)
            && e.sample_outputs == Take(OutputRefs(rs), 3)
            && |ts| == |rs|
            && b.since.value <= MinOf(ts) <= MaxOf(ts) <= b.until.value
            && e.first_run_time == lib.iso(MinOf(ts))
            && e.last_run_time == lib.iso(MaxOf(ts))
  {
    var b := ResolveWindow(opts, now, lib.parse);
    var kept := Kept(runs, opts, now, lib);
    ReportEntriesPerNode(nodes, kept, lib);
    var rs := RunsOf(kept, e.node_id);
    assert e.node_id in NodeIds(kept);
    var r :| r in kept && r.node_id == e.node_id;
    assert r in rs;
    EntryTimes(nodes, e.node_id, rs, lib, b.since.value, b.until.value);
  }

  /** Entries come newest first by `last_run_time`; entries with equal
      `last_run_time` keep the order in which their nodes first appeared in
      the kept runs. */
  lemma BuildDevlogOrder(cfg: DevlogConfig, nodes: seq<Node>, runs: seq<Run>, opts: BuildOptions,
                         now: int, lib: DateLib, response: Option<string>, k: string)
    requires ResolveWindow(opts, now, lib.parse).since.Some? && ResolveWindow(opts, now, lib.parse).until.Some?
    ensures var d := BuildDevlog(cfg, nodes, runs, opts, now, lib, response).value;
            var kept := Kept(runs, opts, now, lib);
            && NewestFirst(d.entries)
            && WithKey(d.entries, k) == WithKey(EntriesOf(nodes, GroupByNode(kept), lib), k)
            && Keys(GroupByNode(kept)) == Dedup(NodeIds(kept))
  {
    ReportEntriesOrder(nodes, Kept(runs, opts, now, lib), lib, k);
  }

  /** A well-behaved formatter reflects the string order back onto instants. */
  lemma IsoOrderReflects(iso: int -> string, a: int, b: int)
    requires IsoOrdered(iso)
    requires MinIsoInstant <= a <= MaxIsoInstant && MinIsoInstant <= b <= MaxIsoInstant
    requires Strings.LessEq(iso(a), iso(b))
    ensures a <= b
  {
    if b < a {
      assert Strings.Less(iso(b), iso(a));
      Strings.LessAsymmetric(iso(b), iso(a));
      Strings.LessIrreflexive(iso(a));
    }
  }

  /** An entry's `last_run_time` is the ISO form of its node's latest kept
      run time, which lies in the window. */
  lemma EntryLastRunTime(nodes: seq<Node>, filtered: seq<Run>, lib: DateLib, since: int, until: int, e: DevlogEntry)
    requires forall r :: r in filtered ==> InWindow(lib.parse, r, since, until)
    requires e in ReportEntries(nodes, filtered, lib)
    ensures |ParsedTimes(RunsOf(filtered, e.node_id), lib.parse)| > 0
    ensures since <= MaxOf(ParsedTimes(RunsOf(filtered, e.node_id), lib.parse)) <= until
    ensures e.last_run_time == lib.iso(MaxOf(ParsedTimes(RunsOf(filtered, e.node_id), lib.parse)))
  {
    ReportEntriesPerNode(nodes, filtered, lib);
    var rs := RunsOf(filtered, e.node_id);
    assert e.node_id in NodeIds(filtered);
    var r :| r in filtered && r.node_id == e.node_id;
    assert r in rs;
    EntryTimes(nodes, e.node_id, rs, lib, since, until);
  }

  /** With a well-behaved ISO formatter and a window of four-digit years, the
      string order of the entries is their chronological order. */
  lemma ReportEntriesChronological(nodes: seq<Node>, filtered: seq<Run>, lib: DateLib, since: int, until: int, i: int, j: int)
    requires forall r :: r in filtered ==> InWindow(lib.parse, r, since, until)
    requires IsoOrdered(lib.iso)
    requires MinIsoInstant <= since && until <= MaxIsoInstant
    requires 0 <= i < j < |ReportEntries(nodes, filtered, lib)|
    ensures var es := ReportEntries(nodes, filtered, lib);
            && |ParsedTimes(RunsOf(filtered, es[i].node_id), lib.parse)| > 0
            && |ParsedTimes(RunsOf(filtered, es[j].node_id), lib.parse)| > 0
            && MaxOf(ParsedTimes(RunsOf(filtered, es[j].node_id), lib.parse))
                 <= MaxOf(ParsedTimes(RunsOf(filtered, es[i].node_id), lib.parse))
  {
    var es := ReportEntries(nodes, filtered, lib);
    SortNewestFirst(EntriesOf(nodes, GroupByNode(filtered), lib));
    assert Strings.LessEq(es[j].last_run_time, es[i].last_run_time);
    EntryLastRunTime(nodes, filtered, lib, since, until, es[i]);
    EntryLastRunTime(nodes, filtered, lib, since, until, es[j]);
    IsoOrderReflects(lib.iso, MaxOf(ParsedTimes(RunsOf(filtered, es[j].node_id), lib.parse)),
                     MaxOf(ParsedTimes(RunsOf(filtered, es[i].node_id), lib.parse)));
  }

  /** In the report, an earlier entry's latest run is never older than a
      later entry's (under the same assumptions on the formatter). */
  lemma BuildDevlogChronological(cfg: DevlogConfig, nodes: seq<Node>, runs: seq<Run>, opts: BuildOptions,
                                 now: int, lib: DateLib, response: Option<string>, i: int, j: int)
    requires ResolveWindow(opts, now, lib.parse).since.Some? && ResolveWindow(opts, now, lib.parse).until.Some?
    requires IsoOrdered(lib.iso)
    requires MinIsoInstant <= ResolveWindow(opts, now, lib.parse).since.value
    requires ResolveWindow(opts, now, lib.parse).until.value <= MaxIsoInstant
    requires 0 <= i < j < |BuildDevlog(cfg, nodes, runs, opts, now, lib, response).value.entries|
    ensures var es := BuildDevlog(cfg, nodes, runs, opts, now, lib, response).value.entries;
            var kept := Kept(runs, opts, now, lib);
            && |ParsedTimes(RunsOf(kept, es[i].node_id), lib.parse)| > 0
            && |ParsedTimes(RunsOf(kept, es[j].node_id), lib.parse)| > 0
            && MaxOf(ParsedTimes(RunsOf(kept, es[j].node_id), lib.parse))
                 <= MaxOf(ParsedTimes(RunsOf(kept, es[i].node_id), lib.parse))
  {
    var b := ResolveWindow(opts, now, lib.parse);
    ReportEntriesChronological(nodes, Kept(runs, opts, now, lib), lib, b.since.value, b.until.value, i, j);
  }

  /** The period label and the bounds: ISO forms of the resolved window, the
      label carrying the date part of each; with a well-behaved formatter the
      label is `YYYY-MM-DD → YYYY-MM-DD`. */
  lemma BuildDevlogPeriod(cfg: DevlogConfig, nodes: seq<Node>, runs: seq<Run>, opts: BuildOptions,
                          now: int, lib: DateLib, response: Option<string>)
    requires ResolveWindow(opts, now, lib.parse).since.Some? && ResolveWindow(opts, now, lib.parse).until.Some?
    ensures var d := BuildDevlog(cfg, nodes, runs, opts, now, lib, response).value;
            var b := ResolveWindow(opts, now, lib.parse);
            && d.fromDate == lib.iso(b.since.value)
            && d.toDate == lib.iso(b.until.value)
            && d.periodLabel == Take(d.fromDate, 10) + " \U{2192} " + Take(d.toDate, 10)
    ensures var d := BuildDevlog(cfg, nodes, runs, opts, now, lib, response).value;
            var b := ResolveWindow(opts, now, lib.parse);
            IsoOrdered(lib.iso) && MinIsoInstant <= b.since.value <= MaxIsoInstant
              && MinIsoInstant <= b.until.value <= MaxIsoInstant
            ==> |d.periodLabel| == 23 && d.periodLabel[..10] == d.fromDate[..10] && d.periodLabel[13..] == d.toDate[..10]
  {
    var b := ResolveWindow(opts, now, lib.parse);
    if IsoOrdered(lib.iso) && MinIsoInstant <= b.since.value <= MaxIsoInstant
       && MinIsoInstant <= b.until.value <= MaxIsoInstant {
      PeriodLabelShape(lib.iso(b.since.value), lib.iso(b.until.value));
    }
  }

  /** For 24-character ISO forms the label is 23 characters: both dates and
      the three-character arrow between them. */
  lemma PeriodLabelShape(from: string, to: string)
    requires |from| == 24 && |to| == 24
    ensures var l := Take(from, 10) + " \U{2192} " + Take(to, 10);
            |l| == 23 && l[..10] == from[..10] && l[13..] == to[..10]
  {
  }

  /** The summary is attached exactly when it is wanted and the service
      answered. */
  lemma BuildDevlogSummary(cfg: DevlogConfig, nodes: seq<Node>, runs: seq<Run>, opts: BuildOptions,
                           now: int, lib: DateLib, response: Option<string>)
    requires ResolveWindow(opts, now, lib.parse).since.Some? && ResolveWindow(opts, now, lib.parse).until.Some?
    ensures var d := BuildDevlog(cfg, nodes, runs, opts, now, lib, response).value;
            d.summary == if WantsSummary(cfg, d.totalRuns) then response else None
  {
  }
}

=== FILE: entries.dfy ===
/** Construction of one `DevlogEntry` from a node id and its runs (the body
    of the loop over the grouped runs, src/devlog_builder.ts:51-84). */
module Entries {
  import opened Wrappers
  import opened Types
  import opened Seqs
  import opened Dates
  import Strings
  import opened Window

  // ---------------------------------------------------------------------
  // Node lookup, title and prompt type

  /** The first node whose id is `id`, if any. */
  function FindNode(nodes: seq<Node>, id: string): Option<Node> {
    if |nodes| == 0 then None
    else if nodes[0].node_id == id then Some(nodes[0])
    else FindNode(nodes[1..], id)
  }

  /** `find` yields nothing exactly when no node carries the id, and
      otherwise the node at the first position that carries it. */
  lemma {:induction false} FindNodeSpec(nodes: seq<Node>, id: string)
    ensures FindNode(nodes, id).None? <==> forall n :: n in nodes ==> n.node_id != id
    ensures FindNode(nodes, id).Some? ==>
              exists i :: 0 <= i < |nodes| && nodes[i] == FindNode(nodes, id).value && nodes[i].node_id == id
                          && forall j :: 0 <= j < i ==> nodes[j].node_id != id
  {
    if |nodes| > 0 && nodes[0].node_id != id {
      var r := FindNode(nodes[1..], id);
      FindNodeSpec(nodes[1..], id);
      assert forall n :: n in nodes ==> n == nodes[0] || n in nodes[1..];
      if r.Some? {
        var i :| 0 <= i < |nodes[1..]| && nodes[1..][i] == r.value && nodes[1..][i].node_id == id
                 && forall j :: 0 <= j < i ==> nodes[1..][j].node_id != id;
        assert nodes[i + 1] == r.value;
        assert forall j :: 0 <= j < i + 1 ==> nodes[j].node_id != id by {
          forall j | 0 <= j < i + 1 ensures nodes[j].node_id != id {
            if j > 0 { assert nodes[j] == nodes[1..][j - 1]; }
          }
        }
      }
    }
  }

  function Placeholder(id: string): string {
    "(Unlabeled node " + id + ")"
  }

  /** The found node's title when it is non-empty, otherwise a placeholder
      naming the id. */
  function TitleFor(nodes: seq<Node>, id: string): (t: string)
    ensures t != ""
    ensures FindNode(nodes, id).Some? && FindNode(nodes, id).value.title != "" ==> t == FindNode(nodes, id).value.title
    ensures FindNode(nodes, id).None? || FindNode(nodes, id).value.title == "" ==> t == Placeholder(id)
  {
    var node := FindNode(nodes, id);
    if node.Some? && node.value.title != "" then node.value.title else Placeholder(id)
  }

  /** The found node's prompt type when it is non-empty, otherwise
      "unknown". */
  function PromptTypeFor(nodes: seq<Node>, id: string): (p: string)
    ensures p != ""
    ensures FindNode(nodes, id).Some? && FindNode(nodes, id).value.prompt_type != "" ==> p == FindNode(nodes, id).value.prompt_type
    ensures FindNode(nodes, id).None? || FindNode(nodes, id).value.prompt_type == "" ==> p == "unknown"
  {
    var node := FindNode(nodes, id);
    if node.Some? && node.value.prompt_type != "" then node.value.prompt_type else "unknown"
  }

  /** Only the first node with an id matters: nodes appended after it,
      duplicates included, change neither title nor prompt type. */
  lemma {:induction false} FirstNodeWins(nodes: seq<Node>, more: seq<Node>, id: string)
    requires exists n :: n in nodes && n.node_id == id
    ensures TitleFor(nodes + more, id) == TitleFor(nodes, id)
    ensures PromptTypeFor(nodes + more, id) == PromptTypeFor(nodes, id)
    ensures FindNode(nodes + more, id) == FindNode(nodes, id)
  {
    if nodes[0].node_id != id {
      assert (nodes + more)[1..] == nodes[1..] + more;
      var n :| n in nodes && n.node_id == id;
      assert n in nodes[1..];
      FirstNodeWins(nodes[1..], more, id);
    }
  }

  // ---------------------------------------------------------------------
  // First and last run time

  /** The run times that parse, in run order; unparsable ones are dropped. */
  function ParsedTimes(runs: seq<Run>, parse: string -> Option<int>): (ts: seq<int>)
    ensures |ts| <= |runs|
    ensures (forall i :: 0 <= i < |runs| ==> parse(runs[i].run_time).Some?) ==> |ts| == |runs|
  {
    if |runs| == 0 then []
    else
      (if parse(runs[0].run_time).Some? then [parse(runs[0].run_time).value] else [])
      + ParsedTimes(runs[1..], parse)
  }

  /** A time is among the parsed ones exactly when some run's time parses to it. */
  lemma {:induction false} ParsedTimesMembers(runs: seq<Run>, parse: string -> Option<int>)
    ensures forall t :: t in ParsedTimes(runs, parse) <==> exists r :: r in runs && parse(r.run_time) == Some(t)
  {
    if |runs| > 0 {
      ParsedTimesMembers(runs[1..], parse);
      assert forall r :: r in runs <==> r == runs[0] || r in runs[1..];
    }
  }

  predicate SortedAsc(s: seq<int>) {
    forall i, j :: 0 <= i <= j < |s| ==> s[i] <= s[j]
  }

  function InsertAsc(x: int, s: seq<int>): (r: seq<int>)
    ensures |r| == |s| + 1
  {
    if |s| == 0 || x <= s[0] then [x] + s
    else [s[0]] + InsertAsc(x, s[1..])
  }

  /** The run times sorted numerically, earliest first. */
  function SortAsc(s: seq<int>): (r: seq<int>)
    ensures |r| == |s|
  {
    if |s| == 0 then [] else InsertAsc(s[0], SortAsc(s[1..]))
  }

  /** Inserting into an ascending sequence keeps it ascending and adds
      exactly the inserted element. */
  lemma {:induction false} InsertAscSpec(x: int, s: seq<int>)
    requires SortedAsc(s)
    ensures SortedAsc(InsertAsc(x, s))
    ensures multiset(InsertAsc(x, s)) == multiset(s) + multiset{x}
    ensures InsertAsc(x, s)[0] == if |s| == 0 || x <= s[0] then x else s[0]
  {
    if |s| > 0 && x > s[0] {
      assert s == [s[0]] + s[1..];
      var t := InsertAsc(x, s[1..]);
      InsertAscSpec(x, s[1..]);
      assert s[0] <= t[0];
    }
  }

  /** The sort is ascending and a permutation of its input. */
  lemma {:induction false} SortAscSpec(s: seq<int>)
    ensures SortedAsc(SortAsc(s))
    ensures multiset(SortAsc(s)) == multiset(s)
  {
    if |s| > 0 {
      assert s == [s[0]] + s[1..];
      SortAscSpec(s[1..]);
      InsertAscSpec(s[0], SortAsc(s[1..]));
    }
  }

  /** Reference definitions: the least and the greatest element. */
  function MinOf(s: seq<int>): (m: int)
    requires |s| > 0
    ensures m in s && forall x :: x in s ==> m <= x
  {
    if |s| == 1 then s[0]
    else
      var m := MinOf(s[1..]);
      assert forall x :: x in s ==> x == s[0] || x in s[1..];
      if s[0] <= m then s[0] else m
  }

  function MaxOf(s: seq<int>): (m: int)
    requires |s| > 0
    ensures m in s && forall x :: x in s ==> x <= m
  {
    if |s| == 1 then s[0]
    else
      var m := MaxOf(s[1..]);
      assert forall x :: x in s ==> x == s[0] || x in s[1..];
      if s[0] >= m then s[0] else m
  }

  /** The ends of the ascending sort are the minimum and the maximum. */
  lemma SortAscEnds(s: seq<int>)
    requires |s| > 0
    ensures |SortAsc(s)| == |s|
    ensures SortAsc(s)[0] == MinOf(s)
    ensures SortAsc(s)[|s| - 1] == MaxOf(s)
  {
    var r := SortAsc(s);
    SortAscSpec(s);
    assert |r| == |multiset(r)| == |multiset(s)| == |s|;
    assert forall x :: x in r <==> x in s by {
      forall x ensures x in r <==> x in s {
        assert x in r <==> x in multiset(r);
        assert x in s <==> x in multiset(s);
      }
    }
    assert r[0] in r && r[|r| - 1] in r;
    assert MinOf(s) in r && MaxOf(s) in r;
  }

  /** The ISO form of the first of the sorted run times, or "" when none
      parses: the earliest run time. */
  function FirstRunTime(runs: seq<Run>, lib: DateLib): (t: string)
    ensures ParsedTimes(runs, lib.parse) == [] ==> t == ""
    ensures ParsedTimes(runs, lib.parse) != [] ==> t == lib.iso(MinOf(ParsedTimes(runs, lib.parse)))
  {
    var ts := ParsedTimes(runs, lib.parse);
    var sorted := SortAsc(ts);
    if |sorted| == 0 then ""
    else
      SortAscEnds(ts);
      lib.iso(sorted[0])
  }

  /** The ISO form of the last of the sorted run times, or "" when none
      parses: the latest run time. */
  function LastRunTime(runs: seq<Run>, lib: DateLib): (t: string)
    ensures ParsedTimes(runs, lib.parse) == [] ==> t == ""
    ensures ParsedTimes(runs, lib.parse) != [] ==> t == lib.iso(MaxOf(ParsedTimes(runs, lib.parse)))
  {
    var ts := ParsedTimes(runs, lib.parse);
    var sorted := SortAsc(ts);
    if |sorted| == 0 then ""
    else
      SortAscEnds(ts);
      lib.iso(sorted[|sorted| - 1])
  }

  // ---------------------------------------------------------------------
  // Contexts and sample outputs

  /** A run's context, "unknown" when it is empty. */
  function ContextLabel(r: Run): string {
    if r.run_context == "" then "unknown" else r.run_context
  }

  function ContextLabels(runs: seq<Run>): (ls: seq<string>)
    ensures |ls| == |runs|
    ensures forall i :: 0 <= i < |runs| ==> ls[i] == ContextLabel(runs[i])
  {
    seq(|runs|, i requires 0 <= i < |runs| => ContextLabel(runs[i]))
  }

  /** The distinct context labels of the runs, in order of first
      appearance. */
  function Contexts(runs: seq<Run>): seq<string> {
    Dedup(ContextLabels(runs))
  }

  /** The contexts are distinct, none of them empty, each run's label is
      among them and nothing else is. */
  lemma ContextsSpec(runs: seq<Run>)
    ensures Distinct(Contexts(runs))
    ensures "" !in Contexts(runs)
    ensures forall r :: r in runs ==> ContextLabel(r) in Contexts(runs)
    ensures forall c :: c in Contexts(runs) ==> exists r :: r in runs && ContextLabel(r) == c
  {
    var ls := ContextLabels(runs);
    assert forall c :: c in ls ==> exists r :: r in runs && ContextLabel(r) == c by {
      forall c | c in ls ensures exists r :: r in runs && ContextLabel(r) == c {
        var i :| 0 <= i < |ls| && ls[i] == c;
        assert runs[i] in runs;
      }
    }
    assert forall r :: r in runs ==> ContextLabel(r) in ls by {
      forall r | r in runs ensures ContextLabel(r) in ls {
        var i :| 0 <= i < |runs| && runs[i] == r;
        assert ls[i] == ContextLabel(r);
      }
    }
  }

  /** Reference definition: every truthy `output_ref`, in run order. */
  function OutputRefs(runs: seq<Run>): seq<string> {
    if |runs| == 0 then []
    else (if Truthy(runs[0].output_ref) then [runs[0].output_ref.value] else []) + OutputRefs(runs[1..])
  }

  /** The sampling loop, continued from the samples `acc` collected so far:
      push each truthy `output_ref`, and break once three are held. */
  function CollectSamples(runs: seq<Run>, acc: seq<string>): (r: seq<string>)
    requires |acc| < 3
    ensures acc <= r
    ensures |r| <= 3 && |r| <= |acc| + |runs|
    decreases |runs|
  {
    if |runs| == 0 then acc
    else
      var acc' := if Truthy(runs[0].output_ref) then acc + [runs[0].output_ref.value] else acc;
      if |acc'| >= 3 then acc' else CollectSamples(runs[1..], acc')
  }

  /** The loop collects the first (up to) three truthy output references. */
  lemma {:induction false} CollectSamplesTakesThree(runs: seq<Run>, acc: seq<string>)
    requires |acc| < 3
    ensures CollectSamples(runs, acc) == Take(acc + OutputRefs(runs), 3)
  {
    if |runs| > 0 {
      var head := if Truthy(runs[0].output_ref) then [runs[0].output_ref.value] else [];
      var acc' := if Truthy(runs[0].output_ref) then acc + [runs[0].output_ref.value] else acc;
      assert acc' == acc + head;
      assert acc + OutputRefs(runs) == acc' + OutputRefs(runs[1..]);
      if |acc'| < 3 {
        CollectSamplesTakesThree(runs[1..], acc');
      } else {
        assert (acc' + OutputRefs(runs[1..]))[..3] == acc';
      }
    }
  }

  function SampleOutputs(runs: seq<Run>): (s: seq<string>)
    ensures |s| <= 3
    ensures s == Take(OutputRefs(runs), 3)
  {
    CollectSamplesTakesThree(runs, []);
    assert [] + OutputRefs(runs) == OutputRefs(runs);
    CollectSamples(runs, [])
  }

  // ---------------------------------------------------------------------
  // The entry

  /** The entry built for node `id` from its runs `runs`: it carries the id,
      counts all of the runs, has a non-empty title and prompt type, and
      holds at most three samples. */
  function MakeEntry(nodes: seq<Node>, id: string, runs: seq<Run>, lib: DateLib): (e: DevlogEntry)
    ensures e.node_id == id && e.run_count == |runs|
    ensures e.title != "" && e.prompt_type != ""
    ensures |e.sample_outputs| <= 3
  {
    DevlogEntry(
      node_id := id,
      title := TitleFor(nodes, id),
      prompt_type := PromptTypeFor(nodes, id),
      run_count := |runs|,
      contexts := Contexts(runs),
      first_run_time := FirstRunTime(runs, lib),
      last_run_time := LastRunTime(runs, lib),
      sample_outputs := SampleOutputs(runs))
  }

  /** For a non-empty group of runs that all lie in `[since, until]`, every
      run time parses, so both time fields are the ISO forms of the earliest
      and the latest run time, and those lie within the window in order. */
  lemma EntryTimes(nodes: seq<Node>, id: string, runs: seq<Run>, lib: DateLib, since: int, until: int)
    requires |runs| > 0
    requires forall r :: r in runs ==> InWindow(lib.parse, r, since, until)
    ensures var ts := ParsedTimes(runs, lib.parse);
            && |ts| == |runs|
            && since <= MinOf(ts) <= MaxOf(ts) <= until
            && MakeEntry(nodes, id, runs, lib).first_run_time == lib.iso(MinOf(ts))
            && MakeEntry(nodes, id, runs, lib).last_run_time == lib.iso(MaxOf(ts))
  {
    AllParse(runs, lib.parse, since, until);
    var ts := ParsedTimes(runs, lib.parse);
    SortAscEnds(ts);
    ParsedTimesMembers(runs, lib.parse);
    var r :| r in runs && lib.parse(r.run_time) == Some(MinOf(ts));
    var r' :| r' in runs && lib.parse(r'.run_time) == Some(MaxOf(ts));
  }

  lemma {:induction false} AllParse(runs: seq<Run>, parse: string -> Option<int>, since: int, until: int)
    requires forall r :: r in runs ==> InWindow(parse, r, since, until)
    ensures |ParsedTimes(runs, parse)| == |runs|
  {
    if |runs| > 0 {
      assert runs[0] in runs;
      AllParse(runs[1..], parse, since, until);
    }
  }

  /** With a well-behaved ISO formatter and a window of four-digit years,
      the time fields are full ISO strings and the first does not sort after
      the last. */
  lemma EntryTimesOrdered(nodes: seq<Node>, id: string, runs: seq<Run>, lib: DateLib, since: int, until: int)
    requires |runs| > 0
    requires forall r :: r in runs ==> InWindow(lib.parse, r, since, until)
    requires IsoOrdered(lib.iso)
    requires MinIsoInstant <= since && until <= MaxIsoInstant
    ensures |MakeEntry(nodes, id, runs, lib).first_run_time| == 24
    ensures |MakeEntry(nodes, id, runs, lib).last_run_time| == 24
    ensures Strings.LessEq(MakeEntry(nodes, id, runs, lib).first_run_time, MakeEntry(nodes, id, runs, lib).last_run_time)
  {
    EntryTimes(nodes, id, runs, lib, since, until);
    var ts := ParsedTimes(runs, lib.parse);
    if MinOf(ts) < MaxOf(ts) {
      assert Strings.Less(lib.iso(MinOf(ts)), lib.iso(MaxOf(ts)));
    }
  }
}

=== FILE: entry_sort.dfy ===
/** Ordering of the entries (src/devlog_builder.ts:86-89): the entries are
    sorted by their `last_run_time` string, newest first. The host sort is
    stable, and on the ASCII ISO strings compared here the locale comparison
    is taken to agree with character order, so the result is the stable sort
    by `last_run_time`, newest first. It is modelled as a stable insertion
    sort. */
module EntrySort {
  import opened Types
  import opened Strings

  /** Newest first: no entry's key sorts after the key of an entry before it. */
  predicate NewestFirst(es: seq<DevlogEntry>) {
    forall i, j :: 0 <= i < j < |es| ==> LessEq(es[j].last_run_time, es[i].last_run_time)
  }

  /** Inserts `e` in front of the first entry whose key is not newer than its
      own, so that among equal keys `e` comes first. */
  function InsertByRecency(e: DevlogEntry, es: seq<DevlogEntry>): (r: seq<DevlogEntry>)
    ensures |r| == |es| + 1
    ensures r[0] == if |es| == 0 || LessEq(es[0].last_run_time, e.last_run_time) then e else es[0]
  {
    if |es| == 0 then [e]
    else if LessEq(es[0].last_run_time, e.last_run_time) then [e] + es
    else
      [es[0]] + InsertByRecency(e, es[1..])
  }

  /** The entries, newest first (see `SortNewestFirst` and `SortStable`): a
      rearrangement of the input. */
  function SortByRecency(es: seq<DevlogEntry>): (r: seq<DevlogEntry>)
    ensures |r| == |es|
    ensures multiset(r) == multiset(es)
  {
    if |es| == 0 then []
    else
      var t := SortByRecency(es[1..]);
      InsertPermutes(es[0], t);
      assert es == [es[0]] + es[1..];
      InsertByRecency(es[0], t)
  }

  /** Inserting keeps every entry and adds exactly the inserted one. */
  lemma {:induction false} InsertPermutes(e: DevlogEntry, es: seq<DevlogEntry>)
    ensures multiset(InsertByRecency(e, es)) == multiset(es) + multiset{e}
  {
    if |es| > 0 && !LessEq(es[0].last_run_time, e.last_run_time) {
      assert es == [es[0]] + es[1..];
      InsertPermutes(e, es[1..]);
    }
  }

  /** Prepending an entry whose key is at least the head's keeps the order. */
  lemma ConsNewestFirst(x: DevlogEntry, t: seq<DevlogEntry>)
    requires NewestFirst(t)
    requires |t| > 0 ==> LessEq(t[0].last_run_time, x.last_run_time)
    ensures NewestFirst([x] + t)
  {
    forall j | 0 <= j < |t|
      ensures LessEq(t[j].last_run_time, x.last_run_time)
    {
      LessEqTransitive(t[j].last_run_time, t[0].last_run_time, x.last_run_time);
    }
  }

  lemma {:induction false} InsertNewestFirst(e: DevlogEntry, es: seq<DevlogEntry>)
    requires NewestFirst(es)
    ensures NewestFirst(InsertByRecency(e, es))
  {
    if |es| > 0 {
      if LessEq(es[0].last_run_time, e.last_run_time) {
        ConsNewestFirst(e, es);
      } else {
        var t := InsertByRecency(e, es[1..]);
        InsertNewestFirst(e, es[1..]);
        LessTotal(es[0].last_run_time, e.last_run_time);
        ConsNewestFirst(es[0], t);
      }
    }
  }

  /** The sort puts the entries newest first. */
  lemma {:induction false} SortNewestFirst(es: seq<DevlogEntry>)
    ensures NewestFirst(SortByRecency(es))
  {
    if |es| > 0 {
      SortNewestFirst(es[1..]);
      InsertNewestFirst(es[0], SortByRecency(es[1..]));
    }
  }

  /** The entries whose key is `k`, in their order. */
  function WithKey(es: seq<DevlogEntry>, k: string): seq<DevlogEntry> {
    if |es| == 0 then []
    else (if es[0].last_run_time == k then [es[0]] else []) + WithKey(es[1..], k)
  }

  lemma {:induction false} InsertWithKey(e: DevlogEntry, es: seq<DevlogEntry>, k: string)
    ensures WithKey(InsertByRecency(e, es), k) == (if e.last_run_time == k then [e] else []) + WithKey(es, k)
  {
    if |es| > 0 && !LessEq(es[0].last_run_time, e.last_run_time) {
      var t := InsertByRecency(e, es[1..]);
      var r := [es[0]] + t;
      InsertWithKey(e, es[1..], k);
      assert InsertByRecency(e, es) == r;
      assert r[0] == es[0] && r[1..] == t;
      assert WithKey(r, k) == (if es[0].last_run_time == k then [es[0]] else []) + WithKey(t, k);
      assert WithKey(es, k) == (if es[0].last_run_time == k then [es[0]] else []) + WithKey(es[1..], k);
      if e.last_run_time == k {
        assert es[0].last_run_time != k;
      }
    }
  }

  /** Stability: for every key, the entries with that key keep their
      relative order. */
  lemma {:induction false} SortStable(es: seq<DevlogEntry>, k: string)
    ensures WithKey(SortByRecency(es), k) == WithKey(es, k)
  {
    if |es| > 0 {
      SortStable(es[1..], k);
      InsertWithKey(es[0], SortByRecency(es[1..]), k);
    }
  }

  /** The sum of the entries' run counts. */
  function RunCountSum(es: seq<DevlogEntry>): nat {
    if |es| == 0 then 0 else es[0].run_count + RunCountSum(es[1..])
  }

  lemma {:induction false} InsertRunCountSum(e: DevlogEntry, es: seq<DevlogEntry>)
    ensures RunCountSum(InsertByRecency(e, es)) == e.run_count + RunCountSum(es)
  {
    if |es| > 0 && !LessEq(es[0].last_run_time, e.last_run_time) {
      var t := InsertByRecency(e, es[1..]);
      InsertRunCountSum(e, es[1..]);
      assert ([es[0]] + t)[1..] == t;
    }
  }

  /** Sorting neither adds nor loses runs. */
  lemma {:induction false} SortRunCountSum(es: seq<DevlogEntry>)
    ensures RunCountSum(SortByRecency(es)) == RunCountSum(es)
  {
    if |es| > 0 {
      SortRunCountSum(es[1..]);
      InsertRunCountSum(es[0], SortByRecency(es[1..]));
    }
  }
}

=== FILE: grouping.dfy ===
/** Grouping of the filtered runs by `node_id` (the `runsByNode` map of
    src/devlog_builder.ts). A JavaScript `Map` iterates in insertion order,
    so it is modelled as a sequence of groups, one per key, in the order the
    keys were first inserted. */
module Grouping {
  import opened Types
  import opened Seqs

  /** One map entry: a node id and the runs pushed under it. */
  datatype Group = Group(nodeId: string, runs: seq<Run>)

  function Keys(gs: seq<Group>): (ks: seq<string>)
    ensures |ks| == |gs|
    ensures forall i :: 0 <= i < |gs| ==> ks[i] == gs[i].nodeId
  {
    seq(|gs|, i requires 0 <= i < |gs| => gs[i].nodeId)
  }

  /** One step of the `forEach`: a run without a node id is skipped; a run
      whose node id is already a key is appended to that key's runs;
      otherwise a new key is inserted at the end with this run alone. The
      keys grow by the run's node id exactly when it is non-empty and new. */
  function AddRun(gs: seq<Group>, r: Run): (gs': seq<Group>)
    ensures r.node_id == "" ==> gs' == gs
    ensures Keys(gs') ==
              if r.node_id == "" || r.node_id in Keys(gs) then Keys(gs) else Keys(gs) + [r.node_id]
  {
    if r.node_id == "" then gs
    else
      var i := IndexOf(Keys(gs), r.node_id);
      if i == -1 then gs + [Group(r.node_id, [r])]
      else gs[i := Group(r.node_id, gs[i].runs + [r])]
  }

  /** The map after the `forEach` over `runs`, left to right: it has at most
      one key per run, and every key is a non-empty node id holding at least
      one run. */
  function GroupByNode(runs: seq<Run>): (gs: seq<Group>)
    ensures |gs| <= |runs|
    ensures forall i :: 0 <= i < |gs| ==> gs[i].nodeId != "" && gs[i].runs != []
  {
    if |runs| == 0 then []
    else AddRun(GroupByNode(runs[..|runs| - 1]), runs[|runs| - 1])
  }

  /** Reference definitions. The non-empty node ids of `runs`, in run order. */
  function NodeIds(runs: seq<Run>): (ids: seq<string>)
    ensures forall id :: id in ids <==> id != "" && exists r :: r in runs && r.node_id == id
    ensures |ids| <= |runs|
  {
    if |runs| == 0 then []
    else
      var p := runs[..|runs| - 1];
      var x := runs[|runs| - 1];
      assert runs == p + [x];
      NodeIds(p) + (if x.node_id == "" then [] else [x.node_id])
  }

  /** The runs of `runs` whose node id is `id`, in run order. */
  function RunsOf(runs: seq<Run>, id: string): (rs: seq<Run>)
    ensures forall r :: r in rs <==> r in runs && r.node_id == id
    ensures |rs| <= |runs|
  {
    if |runs| == 0 then []
    else
      var p := runs[..|runs| - 1];
      var x := runs[|runs| - 1];
      assert runs == p + [x];
      RunsOf(p, id) + (if x.node_id == id then [x] else [])
  }

  /** The number of runs held by all groups together. */
  function GroupedRuns(gs: seq<Group>): nat {
    if |gs| == 0 then 0 else GroupedRuns(gs[..|gs| - 1]) + |gs[|gs| - 1].runs|
  }

  /** The keys of the grouping fold are the distinct non-empty node ids, in
      order of first appearance. */
  lemma {:induction false} GroupByNodeKeys(runs: seq<Run>)
    ensures Keys(GroupByNode(runs)) == Dedup(NodeIds(runs))
  {
    if |runs| > 0 {
      var p := runs[..|runs| - 1];
      var x := runs[|runs| - 1];
      GroupByNodeKeys(p);
      var s := NodeIds(runs);
      if x.node_id == "" {
        assert s == NodeIds(p);
      } else {
        assert s == NodeIds(p) + [x.node_id];
        assert s[..|s| - 1] == NodeIds(p) && s[|s| - 1] == x.node_id;
        assert Dedup(s) == if x.node_id in Dedup(NodeIds(p)) then Dedup(NodeIds(p)) else Dedup(NodeIds(p)) + [x.node_id];
      }
    }
  }

  /** Each key of the grouping fold holds exactly that node's runs, in run
      order. */
  lemma {:induction false} GroupByNodeRuns(runs: seq<Run>)
    ensures forall i :: 0 <= i < |GroupByNode(runs)| ==>
              GroupByNode(runs)[i].runs == RunsOf(runs, GroupByNode(runs)[i].nodeId)
  {
    if |runs| > 0 {
      var p := runs[..|runs| - 1];
      var x := runs[|runs| - 1];
      var gs := GroupByNode(p);
      GroupByNodeRuns(p);
      GroupByNodeKeys(p);
      var gs' := GroupByNode(runs);
      assert gs' == AddRun(gs, x);
      forall i | 0 <= i < |gs'|
        ensures gs'[i].runs == RunsOf(runs, gs'[i].nodeId)
      {
        StepRuns(p, x, gs, i);
      }
    }
  }

  /** One step of the fold keeps each group equal to its node's runs. */
  lemma StepRuns(p: seq<Run>, x: Run, gs: seq<Group>, i: int)
    requires Keys(gs) == Dedup(NodeIds(p))
    requires 0 <= i < |AddRun(gs, x)|
    requires i < |gs| ==> gs[i].runs == RunsOf(p, gs[i].nodeId)
    ensures AddRun(gs, x)[i].runs == RunsOf(p + [x], AddRun(gs, x)[i].nodeId)
  {
    var gs' := AddRun(gs, x);
    var id := gs'[i].nodeId;
    RunsOfSnoc(p, x, id);
    if i < |gs| {
      KeyPosition(p, x, gs, i);
    } else {
      NewKey(p, x, gs);
    }
  }

  /** A key appended by the step holds the run alone, and no earlier run
      carries it. */
  lemma NewKey(p: seq<Run>, x: Run, gs: seq<Group>)
    requires Keys(gs) == Dedup(NodeIds(p))
    requires |AddRun(gs, x)| > |gs|
    ensures AddRun(gs, x)[|gs|] == Group(x.node_id, [x])
    ensures RunsOf(p, x.node_id) == []
  {
    assert x.node_id !in Keys(gs);
    assert x.node_id !in NodeIds(p);
    NoRunsOf(p, x.node_id);
  }

  /** An existing key keeps its place, and gains the run exactly when the
      run carries that key. */
  lemma KeyPosition(p: seq<Run>, x: Run, gs: seq<Group>, i: int)
    requires Keys(gs) == Dedup(NodeIds(p))
    requires 0 <= i < |gs|
    ensures AddRun(gs, x)[i] == if x.node_id == gs[i].nodeId then Group(x.node_id, gs[i].runs + [x]) else gs[i]
  {
    assert Keys(gs)[i] in NodeIds(p);
    IndexOfDistinct(Keys(gs), i);
  }

  lemma RunsOfSnoc(p: seq<Run>, x: Run, id: string)
    ensures RunsOf(p + [x], id) == RunsOf(p, id) + (if x.node_id == id then [x] else [])
  {
    assert (p + [x])[..|p|] == p;
  }

  /** An id that is not among the node ids of `runs` has no runs there. */
  lemma NoRunsOf(runs: seq<Run>, id: string)
    requires id != "" && id !in NodeIds(runs)
    ensures RunsOf(runs, id) == []
  {
  }

  /** Replacing one group changes the total by the difference in its size. */
  lemma {:induction false} GroupedRunsUpdate(gs: seq<Group>, i: int, g: Group)
    requires 0 <= i < |gs|
    ensures GroupedRuns(gs[i := g]) + |gs[i].runs| == GroupedRuns(gs) + |g.runs|
  {
    var n := |gs|;
    if i < n - 1 {
      assert gs[i := g][..n - 1] == gs[..n - 1][i := g];
      GroupedRunsUpdate(gs[..n - 1], i, g);
    } else {
      assert gs[i := g][..n - 1] == gs[..n - 1];
    }
  }

  /** Every run with a node id lands in exactly one group: the groups hold as
      many runs as there are runs with a non-empty node id. */
  lemma {:induction false} GroupedRunsCount(runs: seq<Run>)
    ensures GroupedRuns(GroupByNode(runs)) == |NodeIds(runs)|
  {
    if |runs| > 0 {
      var p := runs[..|runs| - 1];
      var x := runs[|runs| - 1];
      var gs := GroupByNode(p);
      GroupedRunsCount(p);
      if x.node_id != "" {
        var k := IndexOf(Keys(gs), x.node_id);
        if k == -1 {
          assert (gs + [Group(x.node_id, [x])])[..|gs|] == gs;
        } else {
          GroupedRunsUpdate(gs, k, Group(x.node_id, gs[k].runs + [x]));
        }
      }
    }
  }
}

=== FILE: seqs.dfy ===
/** Generic sequence helpers: first-occurrence lookup (as `indexOf`),
    order-preserving de-duplication (as building an array from a set),
    filtering, and the lenient prefix (as `slice` from zero). */
module Seqs {

  /** No element occurs twice. */
  predicate Distinct<T(==)>(s: seq<T>) {
    forall i, j :: 0 <= i < j < |s| ==> s[i] != s[j]
  }

  /** Index of the first occurrence of `x` in `s`, or -1 when `x` does not
      occur (the convention of `indexOf`). */
  function IndexOf<T(==)>(s: seq<T>, x: T): (r: int)
    ensures -1 <= r < |s|
    ensures r == -1 <==> x !in s
    ensures r >= 0 ==> s[r] == x && x !in s[..r]
  {
    if |s| == 0 then -1
    else if s[0] == x then 0
    else
      var k := IndexOf(s[1..], x);
      assert s[1..][..if k < 0 then 0 else k] == s[1..if k < 0 then 1 else k + 1];
      if k == -1 then -1 else k + 1
  }

  /** The elements of `s` without repetitions, each kept at its first
      occurrence, built left to right as a `Set` fills up. */
  function Dedup<T(==,!new)>(s: seq<T>): (r: seq<T>)
    ensures Distinct(r)
    ensures forall x :: x in r <==> x in s
    ensures |r| <= |s|
  {
    if |s| == 0 then []
    else
      var d := Dedup(s[..|s| - 1]);
      var x := s[|s| - 1];
      assert forall y :: y in s <==> y in s[..|s| - 1] || y == x by {
        assert s == s[..|s| - 1] + [x];
      }
      if x in d then d else d + [x]
  }

  /** `Dedup` keeps elements in order of first appearance: of any two of its
      elements, the one that occurs earlier in `s` comes first. */
  lemma {:induction false} DedupFirstAppearance<T(!new)>(s: seq<T>, i: int, j: int)
    requires 0 <= i < j < |Dedup(s)|
    ensures IndexOf(s, Dedup(s)[i]) < IndexOf(s, Dedup(s)[j])
  {
    var p := s[..|s| - 1];
    var x := s[|s| - 1];
    var d := Dedup(p);
    assert s == p + [x];
    IndexOfExtend(p, x, Dedup(s)[i]);
    IndexOfExtend(p, x, Dedup(s)[j]);
    if j < |d| {
      DedupFirstAppearance(p, i, j);
    } else {
      // Dedup(s)[j] == x, which does not occur in p
      assert Dedup(s)[j] == x && x !in d;
      assert Dedup(s)[i] in d;
    }
  }

  /** Appending an element does not move the first occurrence of anything
      already present. */
  lemma IndexOfExtend<T>(p: seq<T>, x: T, y: T)
    ensures y in p ==> IndexOf(p + [x], y) == IndexOf(p, y)
    ensures y !in p && y == x ==> IndexOf(p + [x], y) == |p|
  {
    if y in p {
      IndexOfPrefix(p, [x], y);
    }
  }

  /** Appending anything does not move the first occurrence of an element
      already present. */
  lemma IndexOfPrefix<T>(p: seq<T>, q: seq<T>, y: T)
    requires y in p
    ensures IndexOf(p + q, y) == IndexOf(p, y)
  {
    var m := IndexOf(p, y);
    var r := IndexOf(p + q, y);
    assert (p + q)[m] == y;
    assert (p + q)[..m] == p[..m];
  }

  /** The elements that pass `keep`, in their original order. */
  function Filter<T(!new)>(s: seq<T>, keep: T -> bool): (r: seq<T>)
    ensures |r| <= |s|
    ensures forall x :: x in r ==> x in s && keep(x)
  {
    if |s| == 0 then []
    else
      assert forall x :: x in s <==> x == s[0] || x in s[1..];
      (if keep(s[0]) then [s[0]] else []) + Filter(s[1..], keep)
  }

  /** Every element that passes is kept. */
  lemma {:induction false} FilterKeeps<T(!new)>(s: seq<T>, keep: T -> bool, x: T)
    requires x in s && keep(x)
    ensures x in Filter(s, keep)
  {
    if s[0] != x {
      assert x in s[1..];
      FilterKeeps(s[1..], keep, x);
    }
  }

  /** Filtering keeps the relative order: any two results come from
      positions of `s` in the same order. */
  lemma {:induction false} FilterPositions<T(!new)>(s: seq<T>, keep: T -> bool, i: int, j: int)
    requires 0 <= i < j < |Filter(s, keep)|
    ensures exists p, q :: 0 <= p < q < |s| && s[p] == Filter(s, keep)[i] && s[q] == Filter(s, keep)[j]
  {
    var f := Filter(s, keep);
    var rest := Filter(s[1..], keep);
    var d := if keep(s[0]) then 1 else 0;
    assert f == (if keep(s[0]) then [s[0]] else []) + rest;
    if d == 1 && i == 0 {
      assert rest[j - 1] in rest;
      var q :| 0 <= q < |s[1..]| && s[1..][q] == rest[j - 1];
      assert s[0] == f[i] && s[q + 1] == f[j];
    } else {
      FilterPositions(s[1..], keep, i - d, j - d);
      var p, q :| 0 <= p < q < |s[1..]| && s[1..][p] == rest[i - d] && s[1..][q] == rest[j - d];
      assert s[p + 1] == f[i] && s[q + 1] == f[j];
    }
  }

  /** In a sequence without repetitions, `indexOf` finds each element at its
      own position. */
  lemma IndexOfDistinct<T>(s: seq<T>, p: int)
    requires Distinct(s) && 0 <= p < |s|
    ensures IndexOf(s, s[p]) == p
  {
  }

  /** Filtering a sequence without repetitions keeps the relative order. */
  lemma FilterInOrder<T(!new)>(s: seq<T>, keep: T -> bool, i: int, j: int)
    requires Distinct(s)
    requires 0 <= i < j < |Filter(s, keep)|
    ensures IndexOf(s, Filter(s, keep)[i]) < IndexOf(s, Filter(s, keep)[j])
  {
    FilterPositions(s, keep, i, j);
    var p, q :| 0 <= p < q < |s| && s[p] == Filter(s, keep)[i] && s[q] == Filter(s, keep)[j];
    IndexOfDistinct(s, p);
    IndexOfDistinct(s, q);
  }

  /** The first `n` elements, or all of them when there are fewer. */
  function Take<T>(s: seq<T>, n: nat): (r: seq<T>)
    ensures |r| == if |s| <= n then |s| else n
    ensures r == s[..|r|]
  {
    if |s| <= n then s else s[..n]
  }

  /** Concatenation is associative; stated once so that proofs can name the
      regrouping they need. */
  lemma AppendAssoc<T>(x: seq<T>, y: seq<T>, z: seq<T>)
    ensures x + (y + z) == (x + y) + z
  {
  }
}

=== FILE: sheets_rows.dfy ===
/** The row-to-record mapping of `SheetsClient.getNodes` and `getRuns`
    (src/sheets_client.ts). A fetched range is a sequence of rows of string
    cells, the first row naming the columns; a range with no values is the
    empty sequence. Columns are located by header name, so their order in
    the sheet does not matter. */
module SheetsRows {
  import opened Wrappers
  import opened Types
  import opened Seqs

  type Sheet = seq<seq<string>>

  /** The cell in column `i`, or "" when the column is missing
      (`i == -1`) or the row stops before it. */
  function Cell(row: seq<string>, i: int): (c: string)
    ensures 0 <= i < |row| ==> c == row[i]
    ensures i < 0 || i >= |row| ==> c == ""
  {
    if 0 <= i < |row| then row[i] else ""
  }

  /** The cell of the column named `name`, found as the first header cell
      with that name. */
  function Field(headers: seq<string>, row: seq<string>, name: string): string {
    Cell(row, IndexOf(headers, name))
  }

  /** A column the header row does not name reads as "" in every row; a
      named one is read at the first header cell carrying the name, later
      duplicates being ignored. */
  lemma FieldLookup(headers: seq<string>, row: seq<string>, name: string, k: int)
    ensures name !in headers ==> Field(headers, row, name) == ""
    ensures 0 <= k < |headers| && headers[k] == name && name !in headers[..k] ==>
              Field(headers, row, name) == Cell(row, k)
  {
  }

  /** An optional field: null for the empty string, the string otherwise. */
  function Nullable(s: string): (o: Option<string>)
    ensures o.None? <==> s == ""
    ensures o.Some? ==> o.value == s
  {
    if s == "" then None else Some(s)
  }

  // ---------------------------------------------------------------------
  // Nodes

  /** `mapRow` of `getNodes`: raw cells, with the three optional fields null
      exactly when their cell is empty. An optional field never holds the
      empty string, and a sheet without a `node_id` or `title` column, or an
      empty row, gives a node that is dropped. */
  function MapNodeRow(headers: seq<string>, row: seq<string>): (n: Node)
    ensures n.parent_node_id != Some("") && n.doc_url != Some("") && n.tags != Some("")
    ensures "node_id" !in headers || "title" !in headers ==> !KeepNode(n)
    ensures |row| == 0 ==> !KeepNode(n)
  {
    Node(
      node_id := Field(headers, row, "node_id"),
      parent_node_id := Nullable(Field(headers, row, "parent_node_id")),
      title := Field(headers, row, "title"),
      prompt_type := Field(headers, row, "prompt_type"),
      doc_url := Nullable(Field(headers, row, "doc_url")),
      status := Field(headers, row, "status"),
      tags := Nullable(Field(headers, row, "tags")),
      created_at := Field(headers, row, "created_at"),
      updated_at := Field(headers, row, "updated_at"))
  }

  /** A node row is kept when it has both a node id and a title. */
  predicate KeepNode(n: Node) {
    n.node_id != "" && n.title != ""
  }

  /** The data rows of the node sheet, mapped and then kept when they have
      a node id and a title. */
  function NodeRecords(headers: seq<string>, dataRows: Sheet): (ns: seq<Node>)
    ensures |ns| <= |dataRows|
    ensures forall n :: n in ns ==> KeepNode(n)
    ensures "node_id" !in headers || "title" !in headers ==> ns == []
  {
    if |dataRows| == 0 then []
    else
      var n := MapNodeRow(headers, dataRows[0]);
      (if KeepNode(n) then [n] else []) + NodeRecords(headers, dataRows[1..])
  }

  /** `getNodes` on the fetched values: nothing for an empty or header-only
      range, otherwise the kept records of the rows after the header. Every
      node has an id and a title, there are fewer nodes than rows, and a
      header row without a `node_id` or `title` column gives none. */
  function GetNodes(rows: Sheet): (ns: seq<Node>)
    ensures |rows| <= 1 ==> ns == []
    ensures |ns| < |rows| || |rows| == 0
    ensures forall n :: n in ns ==> KeepNode(n)
    ensures |rows| > 0 && ("node_id" !in rows[0] || "title" !in rows[0]) ==> ns == []
  {
    if |rows| <= 1 then [] else NodeRecords(rows[0], rows[1..])
  }

  /** The nodes are exactly the mapped data rows that have a node id and a
      title. */
  lemma GetNodesMembers(rows: Sheet)
    ensures forall n :: n in GetNodes(rows) <==>
              exists k :: 1 <= k < |rows| && n == MapNodeRow(rows[0], rows[k]) && KeepNode(n)
  {
    if |rows| > 1 {
      NodeRecordsMembers(rows[0], rows[1..]);
      assert forall k :: 1 <= k < |rows| ==> rows[k] == rows[1..][k - 1];
    }
  }

  lemma {:induction false} NodeRecordsMembers(headers: seq<string>, dataRows: Sheet)
    ensures forall n :: n in NodeRecords(headers, dataRows) <==>
              exists k :: 0 <= k < |dataRows| && n == MapNodeRow(headers, dataRows[k]) && KeepNode(n)
  {
    if |dataRows| > 0 {
      NodeRecordsMembers(headers, dataRows[1..]);
      assert forall k :: 1 <= k < |dataRows| ==> dataRows[k] == dataRows[1..][k - 1];
      forall n | exists k :: 0 <= k < |dataRows| && n == MapNodeRow(headers, dataRows[k]) && KeepNode(n)
        ensures n in NodeRecords(headers, dataRows)
      {
        var k :| 0 <= k < |dataRows| && n == MapNodeRow(headers, dataRows[k]) && KeepNode(n);
        if k > 0 {
          assert dataRows[1..][k - 1] == dataRows[k];
        }
      }
    }
  }

  /** Rows are mapped one by one: the records of a concatenation are the
      concatenated records, so sheet order is kept. */
  lemma {:induction false} NodeRecordsConcat(headers: seq<string>, a: Sheet, b: Sheet)
    ensures NodeRecords(headers, a + b) == NodeRecords(headers, a) + NodeRecords(headers, b)
  {
    if |a| == 0 {
      assert a + b == b;
    } else {
      assert (a + b)[0] == a[0] && (a + b)[1..] == a[1..] + b;
      NodeRecordsConcat(headers, a[1..], b);
      var n := MapNodeRow(headers, a[0]);
      var x := if KeepNode(n) then [n] else [];
      assert NodeRecords(headers, a + b) == x + NodeRecords(headers, a[1..] + b);
      assert x + (NodeRecords(headers, a[1..]) + NodeRecords(headers, b))
          == (x + NodeRecords(headers, a[1..])) + NodeRecords(headers, b);
    }
  }

  // ---------------------------------------------------------------------
  // Runs

  /** `score`: null for an empty cell or one that `Number` reads as NaN
      (`toNumber` returns `None`), otherwise the number. */
  function Score(cell: string, toNumber: string -> Option<real>): (s: Option<real>)
    ensures s.None? <==> cell == "" || toNumber(cell).None?
    ensures s.Some? ==> s == toNumber(cell)
  {
    if cell == "" then None else toNumber(cell)
  }

  /** `mapRow` of `getRuns`. An optional text field never holds the empty
      string, the score is null without a `score` column, and a sheet
      without a `run_id` or `run_time` column, or an empty row, gives a run
      that is dropped. */
  function MapRunRow(headers: seq<string>, row: seq<string>, toNumber: string -> Option<real>): (r: Run)
    ensures r.input_ref != Some("") && r.output_ref != Some("") && r.notes != Some("")
    ensures "score" !in headers ==> r.score.None?
    ensures "run_id" !in headers || "run_time" !in headers ==> !KeepRun(r)
    ensures |row| == 0 ==> !KeepRun(r)
  {
    Run(
      run_id := Field(headers, row, "run_id"),
      node_id := Field(headers, row, "node_id"),
      model := Field(headers, row, "model"),
      run_context := Field(headers, row, "run_context"),
      input_ref := Nullable(Field(headers, row, "input_ref")),
      output_ref := Nullable(Field(headers, row, "output_ref")),
      score := Score(Field(headers, row, "score"), toNumber),
      notes := Nullable(Field(headers, row, "notes")),
      run_time := Field(headers, row, "run_time"))
  }

  /** A run row is kept when it has both a run id and a run time. */
  predicate KeepRun(r: Run) {
    r.run_id != "" && r.run_time != ""
  }

  function RunRecords(headers: seq<string>, dataRows: Sheet, toNumber: string -> Option<real>): (rs: seq<Run>)
    ensures |rs| <= |dataRows|
    ensures forall r :: r in rs ==> KeepRun(r)
    ensures "run_id" !in headers || "run_time" !in headers ==> rs == []
  {
    if |dataRows| == 0 then []
    else
      var r := MapRunRow(headers, dataRows[0], toNumber);
      (if KeepRun(r) then [r] else []) + RunRecords(headers, dataRows[1..], toNumber)
  }

  /** `getRuns` on the fetched values: nothing for an empty or header-only
      range; every run has an id and a time, there are fewer runs than rows,
      and a header row without a `run_id` or `run_time` column gives none. */
  function GetRuns(rows: Sheet, toNumber: string -> Option<real>): (rs: seq<Run>)
    ensures |rows| <= 1 ==> rs == []
    ensures |rs| < |rows| || |rows| == 0
    ensures forall r :: r in rs ==> KeepRun(r)
    ensures |rows| > 0 && ("run_id" !in rows[0] || "run_time" !in rows[0]) ==> rs == []
  {
    if |rows| <= 1 then [] else RunRecords(rows[0], rows[1..], toNumber)
  }

  /** The runs are exactly the mapped data rows that have a run id and a
      run time. */
  lemma GetRunsMembers(rows: Sheet, toNumber: string -> Option<real>)
    ensures forall r :: r in GetRuns(rows, toNumber) <==>
              exists k :: 1 <= k < |rows| && r == MapRunRow(rows[0], rows[k], toNumber) && KeepRun(r)
  {
    if |rows| > 1 {
      RunRecordsMembers(rows[0], rows[1..], toNumber);
      assert forall k :: 1 <= k < |rows| ==> rows[k] == rows[1..][k - 1];
    }
  }

  lemma {:induction false} RunRecordsMembers(headers: seq<string>, dataRows: Sheet, toNumber: string -> Option<real>)
    ensures forall r :: r in RunRecords(headers, dataRows, toNumber) <==>
              exists k :: 0 <= k < |dataRows| && r == MapRunRow(headers, dataRows[k], toNumber) && KeepRun(r)
  {
    if |dataRows| > 0 {
      RunRecordsMembers(headers, dataRows[1..], toNumber);
      assert forall k :: 1 <= k < |dataRows| ==> dataRows[k] == dataRows[1..][k - 1];
      forall r | exists k :: 0 <= k < |dataRows| && r == MapRunRow(headers, dataRows[k], toNumber) && KeepRun(r)
        ensures r in RunRecords(headers, dataRows, toNumber)
      {
        var k :| 0 <= k < |dataRows| && r == MapRunRow(headers, dataRows[k], toNumber) && KeepRun(r);
        if k > 0 {
          assert dataRows[1..][k - 1] == dataRows[k];
        }
      }
    }
  }

  lemma {:induction false} RunRecordsConcat(headers: seq<string>, a: Sheet, b: Sheet, toNumber: string -> Option<real>)
    ensures RunRecords(headers, a + b, toNumber) == RunRecords(headers, a, toNumber) + RunRecords(headers, b, toNumber)
  {
    if |a| == 0 {
      assert a + b == b;
    } else {
      assert (a + b)[0] == a[0] && (a + b)[1..] == a[1..] + b;
      RunRecordsConcat(headers, a[1..], b, toNumber);
      var r := MapRunRow(headers, a[0], toNumber);
      var x := if KeepRun(r) then [r] else [];
      assert RunRecords(headers, a + b, toNumber) == x + RunRecords(headers, a[1..] + b, toNumber);
      assert x + (RunRecords(headers, a[1..], toNumber) + RunRecords(headers, b, toNumber))
          == (x + RunRecords(headers, a[1..], toNumber)) + RunRecords(headers, b, toNumber);
    }
  }

  // ---------------------------------------------------------------------
  // Column order does not matter

  /** `s` with the elements at `i` and `j` exchanged. */
  function Swap<T>(s: seq<T>, i: int, j: int): (r: seq<T>)
    requires 0 <= i < |s| && 0 <= j < |s|
    ensures |r| == |s|
  {
    s[i := s[j]][j := s[i]]
  }

  /** `row` widened with empty cells to `n` columns. The Sheets API leaves
      out a row's trailing empty cells, so a row and its widened form stand
      for the same row of the sheet. */
  function Pad(row: seq<string>, n: nat): (r: seq<string>)
    ensures |r| == if |row| < n then n else |row|
    ensures r[..|row|] == row
    ensures forall k :: |row| <= k < |r| ==> r[k] == ""
    decreases n - |row|
  {
    if |row| >= n then row
    else
      var r := Pad(row + [""], n);
      assert r[..|row|] == r[..|row| + 1][..|row|];
      r
  }

  /** Widening a row changes none of its fields. */
  lemma PadField(headers: seq<string>, row: seq<string>, n: nat, name: string)
    ensures Field(headers, Pad(row, n), name) == Field(headers, row, name)
  {
    var k := IndexOf(headers, name);
    var p := Pad(row, n);
    if 0 <= k < |row| {
      assert p[k] == p[..|row|][k];
    }
  }

  /** Exchanging two columns, header and cells alike, leaves every field
      where it was: the lookup is by name. A row that stops before a swapped
      column is first widened with the empty cells it stands for. */
  lemma SwapColumnsField(headers: seq<string>, row: seq<string>, i: int, j: int, name: string)
    requires Distinct(headers)
    requires 0 <= i < |headers| && 0 <= j < |headers|
    ensures Field(Swap(headers, i, j), Swap(Pad(row, |headers|), i, j), name) == Field(headers, row, name)
  {
    var p := Pad(row, |headers|);
    var h' := Swap(headers, i, j);
    SwapDistinct(headers, i, j);
    var k := IndexOf(headers, name);
    if k != -1 {
      var k' := if k == i then j else if k == j then i else k;
      assert h'[k'] == name;
      IndexOfDistinct(h', k');
      IndexOfDistinct(headers, k);
      assert Swap(p, i, j)[k'] == p[k];
    }
    PadField(headers, row, |headers|, name);
  }

  /** Exchanging two elements keeps a sequence free of repeats. */
  lemma SwapDistinct<T>(s: seq<T>, i: int, j: int)
    requires Distinct(s)
    requires 0 <= i < |s| && 0 <= j < |s|
    ensures Distinct(Swap(s, i, j))
  {
    var s' := Swap(s, i, j);
    forall a, b | 0 <= a < b < |s'| ensures s'[a] != s'[b] {
      var a' := if a == i then j else if a == j then i else a;
      var b' := if b == i then j else if b == j then i else b;
      assert s'[a] == s[a'] && s'[b] == s[b'];
    }
  }

  /** Hence records do not depend on the order of the sheet's columns. */
  lemma SwapColumnsNode(headers: seq<string>, row: seq<string>, i: int, j: int)
    requires Distinct(headers)
    requires 0 <= i < |headers| && 0 <= j < |headers|
    ensures MapNodeRow(Swap(headers, i, j), Swap(Pad(row, |headers|), i, j)) == MapNodeRow(headers, row)
  {
    SwapColumnsField(headers, row, i, j, "node_id");
    SwapColumnsField(headers, row, i, j, "parent_node_id");
    SwapColumnsField(headers, row, i, j, "title");
    SwapColumnsField(headers, row, i, j, "prompt_type");
    SwapColumnsField(headers, row, i, j, "doc_url");
    SwapColumnsField(headers, row, i, j, "status");
    SwapColumnsField(headers, row, i, j, "tags");
    SwapColumnsField(headers, row, i, j, "created_at");
    SwapColumnsField(headers, row, i, j, "updated_at");
  }

  lemma SwapColumnsRun(headers: seq<string>, row: seq<string>, i: int, j: int, toNumber: string -> Option<real>)
    requires Distinct(headers)
    requires 0 <= i < |headers| && 0 <= j < |headers|
    ensures MapRunRow(Swap(headers, i, j), Swap(Pad(row, |headers|), i, j), toNumber) == MapRunRow(headers, row, toNumber)
  {
    SwapColumnsField(headers, row, i, j, "run_id");
    SwapColumnsField(headers, row, i, j, "node_id");
    SwapColumnsField(headers, row, i, j, "model");
    SwapColumnsField(headers, row, i, j, "run_context");
    SwapColumnsField(headers, row, i, j, "input_ref");
    SwapColumnsField(headers, row, i, j, "output_ref");
    SwapColumnsField(headers, row, i, j, "score");
    SwapColumnsField(headers, row, i, j, "notes");
    SwapColumnsField(headers, row, i, j, "run_time");
  }
}

=== FILE: strings.dfy ===
/** String helpers: the code-point lexicographic order used to compare ISO
    timestamp strings (on strings of characters below U+10000, as here, it
    agrees with JavaScript's UTF-16 code-unit order), piece occurrence, and
    joining with a separator. */
module Strings {

  /** `a` sorts strictly before `b` in code-point lexicographic order; a proper
      prefix sorts first. */
  predicate Less(a: string, b: string) {
    if |a| == 0 then |b| > 0
    else if |b| == 0 then false
    else if a[0] != b[0] then a[0] < b[0]
    else Less(a[1..], b[1..])
  }

  predicate LessEq(a: string, b: string) {
    a == b || Less(a, b)
  }

  lemma {:induction false} LessIrreflexive(a: string)
    ensures !Less(a, a)
  {
    if |a| > 0 {
      LessIrreflexive(a[1..]);
    }
  }

  lemma {:induction false} LessAsymmetric(a: string, b: string)
    ensures Less(a, b) ==> !Less(b, a)
  {
    if |a| > 0 && |b| > 0 && a[0] == b[0] {
      LessAsymmetric(a[1..], b[1..]);
    }
  }

  lemma {:induction false} LessTransitive(a: string, b: string, c: string)
    requires Less(a, b) && Less(b, c)
    ensures Less(a, c)
  {
    if |a| > 0 && a[0] == b[0] && b[0] == c[0] {
      LessTransitive(a[1..], b[1..], c[1..]);
    }
  }

  /** Two different strings are always ordered one way or the other. */
  lemma {:induction false} LessTotal(a: string, b: string)
    requires a != b
    ensures Less(a, b) || Less(b, a)
  {
    if |a| > 0 && |b| > 0 && a[0] == b[0] {
      assert a == [a[0]] + a[1..] && b == [b[0]] + b[1..];
      LessTotal(a[1..], b[1..]);
    }
  }

  lemma LessEqTransitive(a: string, b: string, c: string)
    requires LessEq(a, b) && LessEq(b, c)
    ensures LessEq(a, c)
  {
    if a != b && b != c {
      LessTransitive(a, b, c);
    }
  }

  /** `t` occurs in `s` starting at position `p`. */
  predicate OccursAt(t: string, s: string, p: int) {
    0 <= p && p + |t| <= |s| && s[p..p + |t|] == t
  }

  /** `t` occurs in `s` as a contiguous piece. */
  predicate Occurs(t: string, s: string) {
    exists p :: 0 <= p <= |s| && OccursAt(t, s, p)
  }

  /** The parts, with `sep` between each two neighbours. */
  function Join(parts: seq<string>, sep: string): (r: string)
    ensures |parts| == 1 ==> r == parts[0]
    ensures |parts| == 0 ==> r == ""
  {
    if |parts| == 0 then ""
    else if |parts| == 1 then parts[0]
    else parts[0] + sep + Join(parts[1..], sep)
  }

  /** Every part can be found in the joined string. */
  lemma {:induction false} JoinContains(parts: seq<string>, sep: string, i: int)
    requires 0 <= i < |parts|
    ensures Occurs(parts[i], Join(parts, sep))
  {
    var j := Join(parts, sep);
    if |parts| == 1 || i == 0 {
      assert OccursAt(parts[i], j, 0);
    } else {
      var rest := Join(parts[1..], sep);
      JoinContains(parts[1..], sep, i - 1);
      var t := parts[i];
      assert parts[1..][i - 1] == t;
      var q :| 0 <= q <= |rest| && OccursAt(t, rest, q);
      assert 0 <= q && q + |t| <= |rest| && rest[q..q + |t|] == t;
      var off := |parts[0]| + |sep|;
      assert j == parts[0] + sep + rest;
      assert j[off + q..off + q + |t|] == rest[q..q + |t|];
      assert OccursAt(t, j, off + q);
    }
  }

  /** A piece of `s` is still a piece after a prefix is put in front. */
  lemma OccursAfterPrefix(pre: string, s: string, t: string)
    requires Occurs(t, s)
    ensures Occurs(t, pre + s)
  {
    var q :| 0 <= q <= |s| && OccursAt(t, s, q);
    assert (pre + s)[|pre| + q..|pre| + q + |t|] == s[q..q + |t|];
    assert OccursAt(t, pre + s, |pre| + q);
  }

  /** Joining one more part appends the separator and that part. */
  lemma {:induction false} JoinSnoc(parts: seq<string>, sep: string, p: string)
    requires |parts| > 0
    ensures Join(parts + [p], sep) == Join(parts, sep) + sep + p
  {
    var q := parts + [p];
    assert q[0] == parts[0] && q[1..] == parts[1..] + [p];
    if |parts| > 1 {
      JoinSnoc(parts[1..], sep, p);
    } else {
      assert q[1..] == [p];
    }
  }
}

=== FILE: types.dfy ===
/** The records the devlog pipeline reads and produces (src/types.ts).
    `string | null` fields become `Option<string>`, `number` counts become
    `nat`, and a numeric score is a `real`. */
module Types {
  import opened Wrappers

  /** A tracked unit of work, one row of the nodes sheet. */
  datatype Node = Node(
    node_id: string,
    parent_node_id: Option<string>,
    title: string,
    prompt_type: string,
    doc_url: Option<string>,
    status: string,
    tags: Option<string>,
    created_at: string,
    updated_at: string)

  /** One recorded execution attached to a node, one row of the runs sheet. */
  datatype Run = Run(
    run_id: string,
    node_id: string,
    model: string,
    run_context: string,
    input_ref: Option<string>,
    output_ref: Option<string>,
    score: Option<real>,
    notes: Option<string>,
    run_time: string)

  /** The per-node summary of the runs in the window. */
  datatype DevlogEntry = DevlogEntry(
    node_id: string,
    title: string,
    prompt_type: string,
    run_count: nat,
    contexts: seq<string>,
    first_run_time: string,
    last_run_time: string,
    sample_outputs: seq<string>)

  /** The assembled report handed to the renderer. */
  datatype DevlogData = DevlogData(
    periodLabel: string,
    fromDate: string,
    toDate: string,
    totalRuns: nat,
    totalNodes: nat,
    entries: seq<DevlogEntry>,
    summary: Option<string>)

  /** The resolved settings. `geminiApiKey` and `geminiModelId` are optional
      in the interface but always filled in by the loader, so they are plain
      strings here. */
  datatype DevlogConfig = DevlogConfig(
    googleProjectId: Option<string>,
    googleClientEmail: string,
    googlePrivateKey: string,
    ledgerSheetId: string,
    nodesRange: string,
    runsRange: string,
    geminiApiKey: string,
    geminiModelId: string,
    outputDir: string)

  /** Options of one build: absent fields are `None`; `windowDays` is the
      value `Number` produced. */
  datatype BuildOptions = BuildOptions(
    since: Option<string>,
    until: Option<string>,
    windowDays: Option<real>)

  /** JavaScript truthiness of an optional string: present and non-empty. */
  predicate Truthy(s: Option<string>) {
    s.Some? && s.value != ""
  }

  /** JavaScript truthiness of an optional (non-NaN) number: present and non-zero. */
  predicate TruthyNumber(n: Option<real>) {
    n.Some? && n.value != 0.0
  }
}

=== FILE: window.dfy ===
/** Time-window resolution and the run filter of `buildDevlog`
    (src/devlog_builder.ts). */
module Window {
  import opened Wrappers
  import opened Types
  import opened Dates

  /** The resolved `sinceDate`/`untilDate`; `None` is an Invalid Date. */
  datatype Bounds = Bounds(since: Option<int>, until: Option<int>)

  /** The relative branch: a truthy day count and neither explicit bound. */
  predicate RelativeWindow(opts: BuildOptions) {
    TruthyNumber(opts.windowDays) && !Truthy(opts.since) && !Truthy(opts.until)
  }

  /** Resolves the window from the options, the current instant `now` and the
      host date parser. A relative window ends now and reaches back
      `windowDays` whole days; otherwise each explicit bound is parsed and a
      missing one defaults to the epoch (start) or to now (end). */
  function ResolveWindow(opts: BuildOptions, now: int, parse: string -> Option<int>): (b: Bounds)
    ensures RelativeWindow(opts) ==> b.until == Some(now)
    ensures RelativeWindow(opts) ==>
              (b.since.Some? <==> -(MaxTimeValue as real) <= now as real - opts.windowDays.value * MsPerDay as real <= MaxTimeValue as real)
    ensures RelativeWindow(opts) && b.since.Some? && opts.windowDays.value == opts.windowDays.value.Floor as real ==>
              b.since.value == now - opts.windowDays.value.Floor * MsPerDay
    ensures !RelativeWindow(opts) ==> b.since == if Truthy(opts.since) then parse(opts.since.value) else Some(Epoch)
    ensures !RelativeWindow(opts) ==> b.until == if Truthy(opts.until) then parse(opts.until.value) else Some(now)
  {
    if RelativeWindow(opts) then
      Bounds(TimeClip(now as real - opts.windowDays.value * MsPerDay as real), Some(now))
    else
      Bounds(if Truthy(opts.since) then parse(opts.since.value) else Some(Epoch),
             if Truthy(opts.until) then parse(opts.until.value) else Some(now))
  }

  /** As soon as one explicit bound is given, the day count plays no part. */
  lemma ExplicitBoundIgnoresWindowDays(opts: BuildOptions, now: int, parse: string -> Option<int>)
    requires Truthy(opts.since) || Truthy(opts.until)
    ensures ResolveWindow(opts, now, parse) == ResolveWindow(opts.(windowDays := None), now, parse)
  {
  }

  /** `run.run_time` parses to an instant within `[since, until]`, both ends
      included. */
  predicate InWindow(parse: string -> Option<int>, run: Run, since: int, until: int) {
    var d := parse(run.run_time);
    d.Some? && since <= d.value <= until
  }

  /** The runs whose timestamp parses and lies in the
      window, in their original order. */
  function FilterRuns(runs: seq<Run>, parse: string -> Option<int>, since: int, until: int): (out: seq<Run>)
    ensures forall r :: r in out <==> r in runs && InWindow(parse, r, since, until)
    ensures |out| <= |runs|
  {
    if |runs| == 0 then []
    else
      (if InWindow(parse, runs[0], since, until) then [runs[0]] else [])
      + FilterRuns(runs[1..], parse, since, until)
  }

  /** The filter works run by run: filtering a concatenation is the
      concatenation of the filtered parts, so the output keeps input order. */
  lemma {:induction false} FilterRunsConcat(a: seq<Run>, b: seq<Run>, parse: string -> Option<int>, since: int, until: int)
    ensures FilterRuns(a + b, parse, since, until) == FilterRuns(a, parse, since, until) + FilterRuns(b, parse, since, until)
  {
    if |a| > 0 {
      assert (a + b)[1..] == a[1..] + b;
      FilterRunsConcat(a[1..], b, parse, since, until);
    } else {
      assert a + b == b;
    }
  }
}

=== FILE: wrappers.dfy ===
/** Wrappers used across the model: `Option` stands for the source's
    `T | null` / `T | undefined`, `Result` for an operation that either
    returns a value or throws. */
module Wrappers {

  datatype Option<+T> = None | Some(value: T)

  datatype Result<+R, +E> = Success(value: R) | Failure(error: E)
}
